=== FILE: README.md ===
# Mangle core in Dafny

Mangle turns comic and manga scans into pages for e-book readers. This project
models two parts of it and proves what they promise.

- **Page conversion** (`image.py`). It covers:
  - the device table (page size and grey palette of each reader);
  - the `ImageFlags` bit mask;
  - the five stages `convertImage` chains: colour-mode normalisation, orientation, aspect-preserving resize, framing, and quantisation to the device palette.

  An image is reduced to its width, height, colour mode and palette. Pixels are not modelled.
- **The book** (`book.py`). It covers:
  - the ordered list of image files of a book, and the window operations that edit it in place: shift selected entries up or down, append new files, remove selected files;
  - the book-file name fix-up and the image-extension test;
  - how the conversion flags are written to and read from the defaults file.

Files:

| file | module | models |
|---|---|---|
| `wrappers.dfy` | `Wrappers` | `Option` and `Result`, for missing values and raised errors |
| `image_flags.dfy` | `ImageFlags` | the flag bits, the bit test `mask & flag`, and packing booleans into a mask |
| `kindle_data.dfy` | `KindleData` | `KindleData.Palette4`, `Palette15` and `Profiles` |
| `imaging.dfy` | `Imaging` | `quantizeImage`, `resizeImage`, `formatImage`, `orientImage`, `frameImage`, `convertImage` |
| `book_defaults.dfy` | `BookDefaults` | `Book.DefaultImageFlags` and the flag attributes of `save_defaults` / `load_defaults` |
| `book_paths.dfy` | `BookPaths` | `os.path.splitext` (POSIX), `cleanupBookFile`, the extension test of `isImageFile` |
| `books.dfy` | `Books` | class `Book` with `images` and `modified`; `shiftImageFile`, `shiftImageFiles`, `addImageFiles`, `removeImageFiles` |

Modelling choices:

- Python 2 `/` on non-negative integers is floor division, the same as Dafny's `/`.
- `resizeImage` compares float ratios. The model compares the same ratios exactly by cross-multiplication. It computes `int(widthMax / ratioImg)` as the floor of `widthMax * heightOrig / widthOrig`.
- `convertImage` opens the source file. The model takes the decoded image as a parameter: `None` stands for a file that cannot be read.
- `isImageFile` asks the file system whether the path is a regular file. The model takes that answer as a parameter.
- The editing operations belong to the book window in the source. They keep the window's list widget and `Book.images` in step. The model keeps only `Book.images` and `Book.modified`, and puts the operations on `Book`. The widget's row count is the length of `images`.
- `shiftImageFiles` sorts the rows of the selected widget items. The model takes the sorted rows, which are strictly increasing because each item has its own row.
- `removeImageFiles` requires `Removable`: every name is still in the list when its turn comes. This is exactly the case in which Python's `list.remove` raises nothing. `Books.PresentRemovable` shows it holds whenever the names are entries of the list, counting repeats, as selected widget items are.

Facts about the code that the model keeps:

- **Frame canvas.** `frameImage` makes a canvas of exactly the device size (image.py:149). An image larger than the device is cropped, not given a larger canvas.
- **Orientation comes first.** In the model, where a quarter turn swaps the sides exactly, a 1600×1200 image converted for the Kindle 3 with Orient, Shrink and Quantize becomes a 600×800 page, because the landscape scan is turned for the portrait device before it is resized (`Imaging.ConvertKindle3Example`). Without Orient the page is 600×450 (`Imaging.ConvertKindle3Unturned`).
- **Device table.** The table has seven devices, and "nook color" is 600×1024.
- **Split and RightToLeft.** Neither is implemented in these files: no split routine exists, and `convertImage` returns one image.

## Model

| member | source | states |
|---|---|---|
| ImageFlags.DeclaredBit | image.py:20-27 | the class declares bits 1, 2, 4, 8, 16, 32 for Orient…Split; looking up RightToLeft fails, and only RightToLeft |
| ImageFlags.Bit | image.py:20-27 | each flag's bit is 2^index, RightToLeft taking the next free bit 1 << 6 |
| ImageFlags.BitsDistinct | image.py:20-27 | two flags have the same bit iff they are the same flag |
| ImageFlags.Has | image.py:169-180 | the flag test `flags & ImageFlags.<f>` holds iff the flag's binary digit of the mask is 1 |
| ImageFlags.TestBitDiv | book.py:53-59 | the test `mask & bit` is the parity of `mask / 2^k`, the k-th binary digit |
| ImageFlags.HasFromBits | book.py:106-114 | the mask OR-ed from seven booleans holds each flag iff that flag's boolean is true |
| ImageFlags.TestFromBits | book.py:106-114 | OR-ing one bit per true boolean gives a mask whose bit k is the k-th boolean, with every higher bit clear |
| ImageFlags.FromBitsBounded | book.py:106-114 | a mask OR-ed from n bits is below 2^n |
| ImageFlags.SameBits | image.py:20-27 | two masks below 2^n that agree on their n low bits are equal |
| ImageFlags.SameFlags | image.py:20-27 | two masks of the seven flags that hold the same flags are equal |
| KindleData.GreysAt | image.py:30-53 | a palette written level by level has one grey triple per level, from the first level's to the last level's |
| KindleData.Palette4IsGreyRamp | image.py:30-35 | Palette4 is 12 bytes: 4 grey colours from black to white |
| KindleData.Palette15IsGreyRamp | image.py:37-53 | Palette15 is 45 bytes: 15 grey colours from black to white |
| KindleData.ProfilesTable | image.py:55-63 | exactly the seven devices, nook color 600×1024, all sizes positive, only Kindle 1 on the 4-grey palette |
| KindleData.PaletteIsGreyRamp | image.py:55-63 | every device palette is whole grey triples, 4 or 15 colours, black first and white last |
| Imaging.Repeat | image.py:69 | `block * n` has n·|block| entries, starts with the block and repeats it with period |block| |
| Imaging.PadPalette | image.py:66-69 | the padded palette keeps the original as prefix; with 256 colours or more it is unchanged; otherwise it grows by 256 − colours triples, each equal to the first triple |
| Imaging.PadPaletteTo256 | image.py:66-69 | a palette of fewer than 256 whole triples pads to exactly 768 bytes, and every added colour is the first colour |
| Imaging.DevicePalettePadded | image.py:55-69 | every device palette pads to 768 bytes whose last colour is black, the first colour |
| Imaging.QuantizeImage | image.py:66-74 | an "RGB" or "L" image (what PIL's quantize accepts) keeps its size when quantised and yields a "P" image on the padded palette |
| Imaging.Scale | image.py:99-103 | the truncated derived side q satisfies q·den ≤ target·num < (q+1)·den, the floor of the exact quotient |
| Imaging.NewSize | image.py:94-106 | the new size fits the target; when the image is relatively wider the width binds and the height is the floor of the aspect-kept height, when relatively taller the reverse, and with the target's aspect it is exactly the target |
| Imaging.PlanResize | image.py:77-111 | no resize exactly when the image is smaller on both sides and enlarge is off, or larger on some side and shrink is off; otherwise the new size fits the target, the wider-than-target case keeps the full width with the floored height, the taller case the full height with the floored width, the equal-ratio case is exactly the target, and ANTIALIAS is chosen iff some side shrinks |
| Imaging.ResizeImage | image.py:77-111 | mode and palette kept; unchanged when no resize is planned; when one is, the result has exactly the planned width and height and fits the target |
| Imaging.ShrinkFits | image.py:90-111 | with shrink on, the result always fits the target |
| Imaging.FormatImage | image.py:114-117 | the result is always "RGB" of the same size, and is the image itself when it already was RGB |
| Imaging.OrientImage | image.py:120-127 | rotates, swapping width and height, iff the image's landscape-ness differs from the device's; otherwise unchanged |
| Imaging.OrientSettles | image.py:120-127 | for a non-square image the oriented image matches the device's landscape-ness, and orienting again changes nothing |
| Imaging.Centre | image.py:134-137 | the paste offset centres the image (left and right margins differ by at most one, floor rounding) and is 0 when the image is not smaller |
| Imaging.FrameImage | image.py:130-155 | the canvas has exactly the device size and the image's mode; paste point is the clamped centre; outline corners are paste − 1 and paste + size + 1 |
| Imaging.FrameGeometry | image.py:134-147 | for an image that fits, it lies inside the canvas, centred to within a pixel; the outline touches it on the left/top and leaves one pixel on the right/bottom |
| Imaging.Foreground | image.py:178 | the foreground is the first palette colour |
| Imaging.Background | image.py:178 | the background is the last palette colour |
| Imaging.Prepare | image.py:169-176 | after normalising, orienting and resizing the image is "RGB", and with Shrink it fits the device |
| Imaging.FrameStage | image.py:177-178 | the frame is drawn in the palette's first colour on its last, black on white on every device, on a canvas of exactly the device size in the image's mode |
| Imaging.Convert | image.py:169-182 | the page is "P" on the padded device palette with Quantize and "RGB" without; with Frame it has exactly the device size; with Shrink it fits the device |
| Imaging.ConvertFrameColours | image.py:177-182 | with Frame set the outline is black and the canvas white, and the page is that canvas, quantised when Quantize is set |
| Imaging.DeviceFrameColours | image.py:178 | on every device palette the frame is black on white |
| Imaging.ConvertImage | image.py:158-167 | an unknown device fails before anything else, then an unreadable file; it succeeds iff the device is known and the image was decoded |
| Imaging.ConvertColourMode | image.py:172-182 | with Quantize the page is "P" on the 768-byte padded device palette; without it the page is "RGB" |
| Imaging.ConvertFramedSize | image.py:177-178 | with Frame the page has exactly the device size |
| Imaging.ConvertShrinkFits | image.py:169-176 | with Shrink the page fits the device |
| Imaging.ConvertGeometryWithoutResize | image.py:172-174 | without Orient, resize or frame the page keeps the decoded size; with Orient alone a non-square page has the device's landscape-ness |
| Imaging.ConvertKindle3Example | image.py:158-182 | with the quarter turn taken as an exact swap of the sides, 1600×1200 for Kindle 3 with Orient, Shrink and Quantize gives a 600×800 "P" page |
| Imaging.ConvertKindle3Unturned | image.py:158-182 | the same without Orient gives a 600×450 "P" page |
| BookDefaults.DefaultImageFlags | book.py:31 | the default mask is Orient, Shrink and Quantize, 11, and holds no other flag |
| BookDefaults.TestDeclared | book.py:53-59 | `mask & ImageFlags.<f>` raises exactly for RightToLeft and otherwise is the flag's bit test |
| BookDefaults.SaveFlagsFrom | book.py:53-59 | writing flag attributes in a given order raises iff RightToLeft is among them |
| BookDefaults.SaveFlagsAsWritten | book.py:53-59 | the flag part of save_defaults as written always raises |
| BookDefaults.LoadFlagsFrom | book.py:99-105 | reading flag attributes in a given order raises iff RightToLeft is among them |
| BookDefaults.LoadFlagsAsWritten | book.py:99-114 | the flag part of load_defaults as written always raises |
| BookDefaults.PackFlags | book.py:106-114 | the OR of the seven flags is below 128 and holds each flag iff its boolean is true |
| BookDefaults.PackFlagsOfMask | book.py:106-114 | a mask below 128 is rebuilt exactly from the seven flags it holds |
| BookDefaults.Read | book.py:99-105 | a flag reads as on iff its attribute is "true", or the attribute is absent and the flag is one of DefaultImageFlags |
| BookDefaults.LoadFlags | book.py:99-114 | the loaded mask is below 128 and holds a flag iff its attribute reads "true", or is absent and the flag is a default |
| BookDefaults.SaveFlags | book.py:53-59 | each flag's attribute is written "true" iff the mask holds the flag |
| BookDefaults.LoadSaveRoundTrip | book.py:53-114 | loading what was saved gives back every flag, and so the mask itself when it is below 128 |
| BookDefaults.LoadMissingIsDefault | book.py:99-114 | a defaults element with no flag attributes loads as DefaultImageFlags |
| BookPaths.LastIndex | book.py:489 | `rfind`: −1 or an index holding the character, with no later occurrence |
| BookPaths.Extension | book.py:489 | `splitext(p)[1]` is a suffix of p, empty or a dot followed by no dot or '/', and non-empty iff the last component has a dot after some non-dot character |
| BookPaths.ExtensionAt | book.py:489 | the extension starts at the last dot when that dot follows a non-dot character of the last component |
| BookPaths.IsImageFile | book.py:484-490 | a path is an image file iff it is a regular file and ends, ignoring case, with an image extension after a non-dot in its last component |
| BookPaths.CleanupBookFile | book.py:493-496 | ".mngl" is appended iff the name has no extension, and the name is otherwise unchanged |
| BookPaths.CleanupExtension | book.py:493-496 | after the fix-up the name keeps its extension, or has extension ".mngl" when its last component has a non-dot character |
| BookPaths.CleanupIdempotent | book.py:493-496 | for such names a second fix-up changes nothing |
| BookPaths.CleanupNotIdempotentOnDirectory | book.py:493-496 | "dir/" becomes "dir/.mngl", which gets ".mngl" again on a second fix-up |
| BookPaths.Lower | book.py:489 | `lower()` keeps the length and folds each ASCII capital to lower case |
| BookPaths.ImageExtensionChars | book.py:485 | the four image extensions are a dot followed by lower-case letters |
| BookPaths.ImageSuffix | book.py:484-490 | a text equal to an image extension up to case starts with its only dot and folds to that extension |
| BookPaths.HasImageExtension | book.py:484-490 | the extension test holds iff the name's extension equals one of .jpeg, .jpg, .gif, .png up to case |
| BookPaths.ImageExtensionEnds | book.py:484-490 | every name passing the extension test ends, ignoring case, with .jpeg, .jpg, .gif or .png after a non-dot in its last component |
| BookPaths.EndsImageExtension | book.py:484-490 | every such name passes the extension test |
| BookPaths.HasImageExtensionIff | book.py:484-490 | the extension test accepts exactly those names |
| Books.Swap | book.py:437-439 | the two entries are exchanged and every other entry is kept |
| Books.ValidShift | book.py:424-427 | for a step of ±1 a shift is valid iff the target row exists |
| Books.ShiftOne | book.py:423-439 | a valid shift swaps the row with its neighbour and keeps everything else; an invalid one changes nothing |
| Books.ShiftOnePermutes | book.py:423-439 | one shift, valid or not, is a permutation of the list |
| Books.ShiftBack | book.py:423-439 | a valid shift followed by the opposite shift of the moved entry restores the list |
| Books.ShiftFirst | book.py:442-447 | shifting the first n visited rows in turn keeps the length |
| Books.ShiftFirstPermutes | book.py:442-447 | shifting the first n visited rows in turn is a permutation of the list |
| Books.NoShiftNoChange | book.py:442-447 | when none of the first n visited shifts is valid, the list after them is unchanged |
| Books.Reverse | book.py:446 | `reversed(rows)` reads the rows from the last |
| Books.VisitOrder | book.py:446 | the visit order has one entry per selected row |
| Books.VisitOrderDirection | book.py:442-447 | each selected row is visited once: the rows themselves, ascending, for −1; the rows read from the last, descending, for +1 |
| Books.VisitOrderRowsIn | book.py:442-447 | the visited rows are rows of the list whenever the selected rows are |
| Books.ShiftUpPinnedBlock | book.py:442-447 | moving up the selected rows 0..m−1 lets the top entry sink to row m−1: row 0 cannot move, so each later row swaps with it in turn; entries 1..m−1 each end one row higher and every row from m on is unchanged |
| Books.SinkBlock | book.py:442-447 | the same for any visit order whose first m rows are 0..m−1, by induction on m |
| Books.NewNames | book.py:463-468 | the appended files are at most as many as the given ones, each a given file that was not listed |
| Books.AddStep | book.py:463-468 | one loop step appends the file iff it was not listed, extending the appended names by that file, and something has been appended iff something was before or this file is new |
| Books.NewNamesCount | book.py:458-468 | each given file is appended as often as it is given, or not at all when it was already listed |
| Books.NewNamesInOrder | book.py:458-468 | the appended files are the given files that were not listed, in the order given |
| Books.IndexOf | book.py:453 | the first index holding the name |
| Books.RemoveFirst | book.py:453 | `list.remove` shortens the list by one |
| Books.RemoveFirstAt | book.py:453 | `list.remove` cuts out the first occurrence and keeps everything else in order |
| Books.RemoveFirstMultiset | book.py:453 | `list.remove` takes out exactly one copy of the name |
| Books.RemoveAll | book.py:450-455 | removing n names shortens the list by n |
| Books.PresentRemovable | book.py:450-455 | names that are entries of the list, counting repeats, can all be removed without error |
| Books.RemoveAllMultiset | book.py:450-455 | the removals take out exactly one copy of each name |
| Books.Book.constructor | book.py:35-38 | a new book has no images and is unmodified |
| Books.Book.ShiftImageFile | book.py:423-439 | the list becomes ShiftOne of the old one; modified is set iff the shift was valid, and kept otherwise |
| Books.Book.ShiftImageFiles | book.py:442-447 | the visit order stays within the list; the list becomes ShiftFirst over the visit order of all selected rows; modified is set iff some shift was valid |
| Books.Book.ShiftInOrder | book.py:446-447 | shifting each row of a given order in turn gives ShiftFirst over the whole order; modified is set iff some shift was valid |
| Books.Book.AddImageFiles | book.py:458-468 | the old list is kept and the new files are appended after it; modified is set iff something was appended |
| Books.Book.RemoveImageFiles | book.py:450-455 | the list becomes RemoveAll of the old one; modified is set iff a file was selected |

## Left out

- The Qt user interface. This covers dialogs, message boxes, drag and drop, the list widget the editing operations keep in step with `Book.images`, and the option checkboxes. It is interface code with no behaviour of its own to prove.
- Reading and writing books and defaults as XML, and the device, overwrite, cbz and title attributes. Only the flag attributes of `save_defaults` and `load_defaults` are modelled. The rest is file and XML I/O.
- Exporting, archives and EPUB output (convert.py), which are file I/O and library calls. convert.py is not part of this model.
- Pixel work done by the imaging library: decoding, resampling, rotating pixels, nearest-colour quantisation, pasting and drawing. The model keeps sizes, modes, palettes, paste points and outline corners.
- Imaging.PlanResize: the float ratios and `int()` truncation become exact rational comparisons and floor division. A ratio that floats round differently is not reproduced.
- Imaging.OrientImage: the size of `image.rotate(90, Image.BICUBIC, True)` (image.py:125) is taken to be the exact swap of width and height. The imaging library computes the expanded size from floating-point cos/sin with rounding, which can add a pixel to a side; that rounding is not modelled, so the sizes downstream of a turn (e.g. `Imaging.ConvertKindle3Example`) hold for the exact swap.
- Imaging.ConvertImage: the decoded image must have a positive width and height. The decoder yields no empty image, and the model's rational ratios need a non-zero denominator. In the source a zero height that reaches the ratio at image.py:94 raises ZeroDivisionError (Enlarge set, or Shrink with a side over the target), while a 0×0 image with Enlarge off returns unchanged at image.py:87-88; those error and pass-through paths are not modelled.
- Page splitting and right-to-left page order: the code has neither.
- `os.path.isfile` in `isImageFile` (a parameter) and the directory walk of `addImageDirs` (file-system I/O).
- BookPaths.Extension: POSIX paths only. Windows drive letters and '\\' separators are not modelled.
- BookPaths.Lower: folds ASCII only. `unicode.lower` also folds other scripts.
- Books.Book.constructor: does not model the call to `load_defaults` (book.py:40). As written that call always raises (see Findings); the corrected load only sets the flags and the other defaults, which the model's `Book` does not hold.
- Books.Book.ShiftImageFile: only steps of +1 and −1, the only ones the window passes. For larger steps the list widget and the list would diverge.
- Books.Book.RemoveImageFiles: requires that every removal finds its name. Python would raise ValueError part-way through otherwise, but the selected widget items always name entries of the list.

## Findings

| source | as written | input that shows it | evidently intended | confidence | as-written member | corrected member |
|---|---|---|---|---|---|---|
| book.py:59 | `save_defaults` tests `self.imageFlags & ImageFlags.RightToLeft`, but `ImageFlags` (image.py:20-27) declares no RightToLeft, so every save raises AttributeError. `Book.__init__` calls `load_defaults` (book.py:40), which falls back to `save_defaults` when the defaults file is missing | any call, e.g. `imageFlags = 11` | RightToLeft is a seventh flag on the next free bit, 1 << 6, so each flag is written as "true" iff its bit is set | high, not executed | BookDefaults.SaveFlagsAsWritten | BookDefaults.SaveFlags |
| book.py:105 | `load_defaults` computes the default of rightToLeft as `Book.DefaultImageFlags & ImageFlags.RightToLeft`, which raises for the same reason, so loading a defaults file always fails. `Book.__init__` calls `load_defaults` (book.py:40), so no `Book` can be constructed and the main window, which builds one (book.py:210), cannot open | any defaults file, e.g. one with no attributes | the seven flags are packed into a mask below 128 that holds each flag iff its attribute reads "true" (or it is a default), and loading what was saved gives the mask back | high, not executed | BookDefaults.LoadFlagsAsWritten | BookDefaults.LoadSaveRoundTrip |

=== FILE: book_defaults.dfy ===
/**
 * How `Book` stores its conversion flags in the defaults file (book.py): one
 * "true"/"false" attribute per flag on save, and the flags packed back into a
 * bit mask on load.
 */
module BookDefaults {
  import opened Wrappers
  import opened ImageFlags

  /**
   * `Book.DefaultImageFlags`: Orient | Shrink | Quantize (distinct bits, so |
   * adds them), 11, which holds those three flags and no other.
   */
  function DefaultImageFlags(): (mask: nat)
    ensures mask == 11
    ensures forall f :: Has(mask, f) <==> f == Orient || f == Shrink || f == Quantize
  {
    var mask := Bit(Orient) + Bit(Shrink) + Bit(Quantize);
    assert forall f :: Has(mask, f) <==> f == Orient || f == Shrink || f == Quantize by {
      forall f ensures Has(mask, f) <==> f == Orient || f == Shrink || f == Quantize {
        if f == Orient {} else if f == Shrink {} else if f == Frame {} else if f == Quantize {}
        else if f == Enlarge {} else if f == Split {} else {}
      }
    }
    mask
  }

  /** The attribute of the defaults file that stores a flag. */
  function AttributeName(f: Flag): string
  {
    match f
    case Orient => "orientImages"
    case Shrink => "shrinkImages"
    case Frame => "frameImages"
    case Quantize => "ditherImages"
    case Enlarge => "enlargeImages"
    case Split => "splitImages"
    case RightToLeft => "rightToLeft"
  }

  /** The name of a flag on the ImageFlags class. */
  function FlagName(f: Flag): string
  {
    match f
    case Orient => "Orient"
    case Shrink => "Shrink"
    case Frame => "Frame"
    case Quantize => "Quantize"
    case Enlarge => "Enlarge"
    case Split => "Split"
    case RightToLeft => "RightToLeft"
  }

  function BoolText(b: bool): string
  {
    if b then "true" else "false"
  }

  /** The attributes of the `defaults` element. */
  type Attributes = map<string, string>

  /** `root.attribute(name, default)`: the stored text, or the default when absent. */
  function Attribute(attrs: Attributes, name: string, fallback: string): string
  {
    if name in attrs then attrs[name] else fallback
  }

  /** The order in which save_defaults writes the flag attributes. */
  const SaveOrder: seq<Flag> := [Orient, Shrink, Frame, Quantize, Enlarge, Split, RightToLeft]

  /** The order in which load_defaults reads them. */
  const LoadOrder: seq<Flag> := [Orient, Split, Shrink, Enlarge, Frame, Quantize, RightToLeft]

  // ------------------------------------------------------------------ as written

  /**
   * `mask & ImageFlags.<f>` as Python evaluates it: the attribute lookup on
   * ImageFlags comes first and fails for a flag the class does not declare.
   */
  function TestDeclared(mask: nat, f: Flag): (r: Result<bool, string>)
    ensures r.Failure? <==> f == RightToLeft
    ensures r.Success? ==> r.value == Has(mask, f)
  {
    match DeclaredBit(f)
    case None => Failure("ImageFlags has no attribute " + FlagName(f))
    case Some(bit) =>
      TestBitDiv(mask, Index(f));
      Success((mask / bit) % 2 == 1)
  }

  /**
   * The flag attributes of save_defaults, written in `order` into `written`,
   * stopping at the first test that raises.
   */
  function SaveFlagsFrom(mask: nat, order: seq<Flag>, written: Attributes): (r: Result<Attributes, string>)
    ensures r.Failure? <==> RightToLeft in order
    ensures r.Failure? ==> r.error == "ImageFlags has no attribute RightToLeft"
    decreases order
  {
    if order == [] then Success(written)
    else
      match TestDeclared(mask, order[0])
      case Failure(e) => Failure(e)
      case Success(on) =>
        var r := SaveFlagsFrom(mask, order[1..], written[AttributeName(order[0]) := BoolText(on)]);
        assert RightToLeft in order <==> RightToLeft in order[1..];
        r
  }

  function TextOf(mask: nat, f: Flag): string
  {
    BoolText(Has(mask, f))
  }

  /**
   * save_defaults as written (book.py:53-59): its last flag attribute tests
   * `ImageFlags.RightToLeft`, which image.py never declares, so every call
   * raises AttributeError and nothing is written.
   */
  function SaveFlagsAsWritten(mask: nat): (r: Result<Attributes, string>)
    ensures r.Failure?
  {
    SaveFlagsFrom(mask, SaveOrder, map[])
  }

  /**
   * load_defaults as written (book.py:99-114): the default of each flag
   * attribute is `DefaultImageFlags & ImageFlags.<f>`, and the one for
   * rightToLeft raises AttributeError, so reading a defaults file always fails.
   */
  function LoadFlagsAsWritten(attrs: Attributes): (r: Result<nat, string>)
    ensures r.Failure?
  {
    LoadFlagsFrom(attrs, LoadOrder, 0)
  }

  /**
   * The flag attributes read in `order`, OR-ing each set flag into `mask`.
   * On `LoadOrder` the read of rightToLeft raises first, so the mask is never
   * returned and the OR of book.py:106-114 is never reached.
   */
  function LoadFlagsFrom(attrs: Attributes, order: seq<Flag>, mask: nat): (r: Result<nat, string>)
    ensures r.Failure? <==> RightToLeft in order
    decreases order
  {
    if order == [] then Success(mask)
    else
      match TestDeclared(DefaultImageFlags(), order[0])
      case Failure(e) => Failure(e)
      case Success(byDefault) =>
        var on := Attribute(attrs, AttributeName(order[0]), BoolText(byDefault)) == "true";
        var r := LoadFlagsFrom(attrs, order[1..], if on then mask + Bit(order[0]) else mask);
        assert RightToLeft in order <==> RightToLeft in order[1..];
        r
  }

  // ------------------------------------------------------------------ corrected

  /**
   * The seven booleans OR-ed into a mask (book.py:106-114), with RightToLeft
   * on bit 1 << 6. Each flag has its own bit, so the OR sets exactly the bits
   * of the flags that are on.
   */
  function PackFlags(orient: bool, split: bool, shrink: bool, enlarge: bool,
                     frame: bool, dither: bool, rtl: bool): (mask: nat)
    ensures mask < 128
    ensures Has(mask, Orient) == orient && Has(mask, Split) == split
    ensures Has(mask, Shrink) == shrink && Has(mask, Enlarge) == enlarge
    ensures Has(mask, Frame) == frame && Has(mask, Quantize) == dither
    ensures Has(mask, RightToLeft) == rtl
  {
    var bits := [orient, shrink, frame, dither, enlarge, split, rtl];
    FromBitsBounded(bits);
    HasFromBits(bits, Orient);
    HasFromBits(bits, Split);
    HasFromBits(bits, Shrink);
    HasFromBits(bits, Enlarge);
    HasFromBits(bits, Frame);
    HasFromBits(bits, Quantize);
    HasFromBits(bits, RightToLeft);
    FromBits(bits)
  }

  /** A mask of the seven flags is rebuilt from the flags it holds. */
  lemma PackFlagsOfMask(mask: nat)
    requires mask < 128
    ensures PackFlags(Has(mask, Orient), Has(mask, Split), Has(mask, Shrink), Has(mask, Enlarge),
                      Has(mask, Frame), Has(mask, Quantize), Has(mask, RightToLeft)) == mask
  {
    var packed := PackFlags(Has(mask, Orient), Has(mask, Split), Has(mask, Shrink), Has(mask, Enlarge),
                            Has(mask, Frame), Has(mask, Quantize), Has(mask, RightToLeft));
    forall f ensures Has(packed, f) == Has(mask, f) {
      if f == Orient {} else if f == Split {} else if f == Shrink {} else if f == Enlarge {}
      else if f == Frame {} else if f == Quantize {} else {}
    }
    SameFlags(packed, mask);
  }

  /** What a flag reads as on load: its attribute is "true", or absent and set in the defaults. */
  function Read(attrs: Attributes, f: Flag): (on: bool)
    ensures AttributeName(f) in attrs ==> (on <==> attrs[AttributeName(f)] == "true")
    ensures AttributeName(f) !in attrs ==> (on <==> Has(DefaultImageFlags(), f))
  {
    Attribute(attrs, AttributeName(f), BoolText(Has(DefaultImageFlags(), f))) == "true"
  }

  /** The flag part of load_defaults, corrected. */
  function LoadFlags(attrs: Attributes): (mask: nat)
    ensures mask < 128
    ensures forall f :: Has(mask, f) == Read(attrs, f)
  {
    var orient, split, shrink, enlarge := Read(attrs, Orient), Read(attrs, Split), Read(attrs, Shrink), Read(attrs, Enlarge);
    var frame, dither, rtl := Read(attrs, Frame), Read(attrs, Quantize), Read(attrs, RightToLeft);
    var mask := PackFlags(orient, split, shrink, enlarge, frame, dither, rtl);
    assert forall f :: Has(mask, f) == Read(attrs, f) by {
      forall f ensures Has(mask, f) == Read(attrs, f) {
        if f == Orient {} else if f == Split {} else if f == Shrink {} else if f == Enlarge {}
        else if f == Frame {} else if f == Quantize {} else {}
      }
    }
    mask
  }

  /** The flag part of save_defaults, corrected: one "true"/"false" attribute per flag. */
  function SaveFlags(mask: nat): (attrs: Attributes)
    ensures forall f :: AttributeName(f) in attrs && attrs[AttributeName(f)] == BoolText(Has(mask, f))
  {
    map[
      AttributeName(Orient) := TextOf(mask, Orient),
      AttributeName(Shrink) := TextOf(mask, Shrink),
      AttributeName(Frame) := TextOf(mask, Frame),
      AttributeName(Quantize) := TextOf(mask, Quantize),
      AttributeName(Enlarge) := TextOf(mask, Enlarge),
      AttributeName(Split) := TextOf(mask, Split),
      AttributeName(RightToLeft) := TextOf(mask, RightToLeft)
    ]
  }

  /** Saving and loading the defaults gives back every flag, and so the mask itself. */
  lemma {:induction false} LoadSaveRoundTrip(mask: nat)
    ensures forall f :: Has(LoadFlags(SaveFlags(mask)), f) == Has(mask, f)
    ensures mask < 128 ==> LoadFlags(SaveFlags(mask)) == mask
  {
    var attrs := SaveFlags(mask);
    forall f ensures Read(attrs, f) == Has(mask, f) {
      assert BoolText(false) != "true";
    }
    if mask < 128 {
      SameFlags(LoadFlags(attrs), mask);
    }
  }

  /** A defaults file with no flag attributes loads as DefaultImageFlags. */
  lemma {:induction false} LoadMissingIsDefault()
    ensures LoadFlags(map[]) == DefaultImageFlags()
  {
    SameFlags(LoadFlags(map[]), DefaultImageFlags());
  }
}

=== FILE: book_paths.dfy ===
/**
 * The file-name helpers of the book window (book.py): the extension of a path
 * as `os.path.splitext` computes it on POSIX, the book-file name fix-up and
 * the image-extension test.
 */
module BookPaths {

  /** `s.rfind(c)`: the index of the last `c` in `s`, or -1 when there is none. */
  function LastIndex(s: string, c: char): (i: int)
    ensures -1 <= i < |s|
    ensures i >= 0 ==> s[i] == c
    ensures forall j :: i < j < |s| ==> s[j] != c
  {
    if s == [] then -1
    else if s[|s| - 1] == c then |s| - 1
    else LastIndex(s[..|s| - 1], c)
  }

  /** Some character of `s[lo..hi]` is not a dot. */
  predicate HasNonDot(s: string, lo: nat, hi: nat)
    requires lo <= hi <= |s|
  {
    exists j :: lo <= j < hi && s[j] != '.'
  }

  /**
   * A path has an extension when its last component holds a dot after some
   * character that is not a dot (so ".profile" and "dir/" have none).
   */
  ghost predicate HasExtension(p: string)
  {
    exists j, i :: 0 <= j < i < |p| && p[j] != '.' && p[i] == '.' && NoSlashFrom(p, j)
  }

  /** No '/' occurs in `p` from position `j` on. */
  ghost predicate NoSlashFrom(p: string, j: int)
  {
    forall m :: 0 <= m < |p| && j <= m ==> p[m] != '/'
  }

  /**
   * `os.path.splitext(p)[1]` on POSIX: from the last dot to the end, provided
   * that dot lies after the last '/' and is preceded, within that last
   * component, by a character that is not a dot; otherwise empty.
   */
  function Extension(p: string): (ext: string)
    ensures |ext| <= |p| && ext == p[|p| - |ext|..]
    ensures ext != [] ==> ext[0] == '.'
    ensures forall k :: 0 < k < |ext| ==> ext[k] != '.' && ext[k] != '/'
    ensures ext != [] <==> HasExtension(p)
  {
    var sep := LastIndex(p, '/');
    var dot := LastIndex(p, '.');
    var ext := if dot > sep && HasNonDot(p, sep + 1, dot) then p[dot..] else [];
    assert ext != [] ==> HasExtension(p) by {
      if ext != [] {
        var j :| sep + 1 <= j < dot && p[j] != '.';
        assert NoSlashFrom(p, j);
      }
    }
    assert HasExtension(p) ==> ext != [] by {
      if HasExtension(p) {
        var j, i :| 0 <= j < i < |p| && p[j] != '.' && p[i] == '.' && NoSlashFrom(p, j);
        assert sep < j && i <= dot;
      }
    }
    ext
  }

  /**
   * The extension of a path is the suffix starting at position `k` whenever
   * `k` holds the last dot, nothing after it is a '/', and the last component
   * has a non-dot character before it.
   */
  lemma ExtensionAt(p: string, k: nat, j: nat)
    requires j < k < |p| && p[k] == '.' && p[j] != '.'
    requires forall m :: k < m < |p| ==> p[m] != '.'
    requires NoSlashFrom(p, j)
    ensures Extension(p) == p[k..]
  {
    var sep := LastIndex(p, '/');
    var dot := LastIndex(p, '.');
    assert dot == k;
    assert sep < j;
    assert HasNonDot(p, sep + 1, dot);
  }

  /** The part after the last '/': `os.path.basename`. */
  function LastComponent(p: string): (b: string)
    ensures |b| <= |p| && b == p[|p| - |b|..]
    ensures forall k :: 0 <= k < |b| ==> b[k] != '/'
  {
    p[LastIndex(p, '/') + 1..]
  }

  /**
   * `cleanupBookFile`: a book file name with no extension gets ".mngl"
   * appended; a name that has one is kept.
   */
  function CleanupBookFile(name: string): (r: string)
    ensures Extension(name) != [] ==> r == name
    ensures Extension(name) == [] ==> r == name + ".mngl"
  {
    if |Extension(name)| == 0 then name + ".mngl" else name
  }

  /**
   * What the fix-up leaves: the name's own extension, or ".mngl" when the last
   * component of the name has a character that is not a dot.
   */
  lemma CleanupExtension(name: string)
    ensures Extension(name) != [] ==> Extension(CleanupBookFile(name)) == Extension(name)
    ensures Extension(name) == [] && HasNonDot(LastComponent(name), 0, |LastComponent(name)|) ==>
      Extension(CleanupBookFile(name)) == ".mngl"
  {
    if Extension(name) == [] && HasNonDot(LastComponent(name), 0, |LastComponent(name)|) {
      var b := LastComponent(name);
      var p := name + ".mngl";
      var j :| 0 <= j < |b| && b[j] != '.';
      var j' := |name| - |b| + j;
      assert p[j'] == b[j];
      assert NoSlashFrom(p, j') by {
        forall m | j' <= m < |p| ensures p[m] != '/' {
          if m < |name| {
            assert p[m] == b[m - (|name| - |b|)];
          }
        }
      }
      ExtensionAt(p, |name|, j');
    }
  }

  /**
   * So the fix-up is idempotent for any name whose last component has a
   * non-dot character: a second save does not append ".mngl" again.
   */
  lemma CleanupIdempotent(name: string)
    requires HasNonDot(LastComponent(name), 0, |LastComponent(name)|)
    ensures CleanupBookFile(CleanupBookFile(name)) == CleanupBookFile(name)
  {
    CleanupExtension(name);
  }

  /**
   * Without such a character it is not: "dir/" becomes "dir/.mngl", which
   * `splitext` still reads as having no extension.
   */
  lemma CleanupNotIdempotentOnDirectory()
    ensures CleanupBookFile("dir/") == "dir/.mngl"
    ensures CleanupBookFile("dir/.mngl") == "dir/.mngl.mngl"
  {
    assert LastIndex("dir/", '.') == -1;
    var p := "dir/.mngl";
    assert p[3] == '/' && p[4] == '.';
    assert LastIndex(p, '/') == 3 && LastIndex(p, '.') == 4;
    assert !HasNonDot(p, 4, 4);
  }

  // ------------------------------------------------------------------ image files

  /** ASCII case folding of one character, as `unicode.lower` does on ASCII. */
  function LowerChar(c: char): char
  {
    if 'A' <= c <= 'Z' then (c as int - 'A' as int + 'a' as int) as char else c
  }

  /** `s.lower()` for ASCII text. */
  function Lower(s: string): (r: string)
    ensures |r| == |s|
    ensures forall i :: 0 <= i < |s| ==> r[i] == LowerChar(s[i])
  {
    seq(|s|, i requires 0 <= i < |s| => LowerChar(s[i]))
  }

  /** Two strings that are equal once each character is folded to lower case. */
  predicate EqualIgnoringCase(a: string, b: string)
  {
    |a| == |b| && forall i :: 0 <= i < |a| ==> LowerChar(a[i]) == LowerChar(b[i])
  }

  const ImageExtensions: seq<string> := [".jpeg", ".jpg", ".gif", ".png"]

  /**
   * The extension half of `isImageFile`: the extension, folded to lower case,
   * is one of the four; so it equals one of them up to case.
   */
  function HasImageExtension(name: string): (b: bool)
    ensures b <==> exists e :: e in ImageExtensions && EqualIgnoringCase(Extension(name), e)
  {
    var ext := Extension(name);
    assert (exists e :: e in ImageExtensions && EqualIgnoringCase(ext, e)) ==> Lower(ext) in ImageExtensions by {
      if e :| e in ImageExtensions && EqualIgnoringCase(ext, e) {
        ImageSuffix(ext, e);
      }
    }
    assert Lower(ext) in ImageExtensions ==> EqualIgnoringCase(ext, Lower(ext)) by {
      if Lower(ext) in ImageExtensions {
        LowerIgnoringCase(ext);
      }
    }
    Lower(ext) in ImageExtensions
  }

  /** A text equals its lower-case form up to case (ASCII folding is idempotent). */
  lemma LowerIgnoringCase(t: string)
    ensures EqualIgnoringCase(t, Lower(t))
  {
    forall i | 0 <= i < |t| ensures LowerChar(t[i]) == LowerChar(Lower(t)[i]) {
      assert Lower(t)[i] == LowerChar(t[i]);
    }
  }

  /** Lower-case ASCII letters and the dot, the characters of the image extensions. */
  lemma ImageExtensionChars(e: string)
    requires e in ImageExtensions
    ensures |e| >= 4 && e[0] == '.'
    ensures forall k :: 0 < k < |e| ==> 'a' <= e[k] <= 'z'
    ensures forall k :: 0 <= k < |e| ==> LowerChar(e[k]) == e[k]
  {
  }

  /**
   * Ends, ignoring case, with one of ".jpeg", ".jpg", ".gif" and ".png", with a
   * character that is not a dot before that ending in the last component.
   */
  ghost predicate EndsWithImageExtension(name: string)
  {
    exists e, j :: e in ImageExtensions && 0 <= j < |name| - |e| && name[j] != '.' &&
      NoSlashFrom(name, j) && EqualIgnoringCase(name[|name| - |e|..], e)
  }

  /** Every name that passes the extension test ends with an image extension. */
  lemma {:induction false} ImageExtensionEnds(name: string)
    requires Lower(Extension(name)) in ImageExtensions
    ensures EndsWithImageExtension(name)
  {
    var ext := Extension(name);
    var e := Lower(ext);
    ImageExtensionChars(e);
    var j, i :| 0 <= j < i < |name| && name[j] != '.' && name[i] == '.' && NoSlashFrom(name, j);
    var k := |name| - |ext|;
    assert name[k..] == ext;
    assert i <= k;
    assert EqualIgnoringCase(ext, e) by {
      forall m | 0 <= m < |ext| ensures LowerChar(ext[m]) == LowerChar(e[m]) {
        assert e[m] == LowerChar(ext[m]);
      }
    }
    assert e in ImageExtensions && 0 <= j < |name| - |e| && name[j] != '.' && NoSlashFrom(name, j);
  }

  /** Every name that ends with an image extension passes the extension test. */
  lemma {:induction false} EndsImageExtension(name: string)
    requires EndsWithImageExtension(name)
    ensures Lower(Extension(name)) in ImageExtensions
  {
    var e, j :| e in ImageExtensions && 0 <= j < |name| - |e| && name[j] != '.' &&
      NoSlashFrom(name, j) && EqualIgnoringCase(name[|name| - |e|..], e);
    var k := |name| - |e|;
    ImageSuffix(name[k..], e);
    forall m | k < m < |name| ensures name[m] != '.' {
      assert name[m] == name[k..][m - k];
    }
    ExtensionAt(name, k, j);
  }

  /**
   * A text equal to an image extension up to case starts with its only dot
   * and folds to that extension.
   */
  lemma ImageSuffix(t: string, e: string)
    requires e in ImageExtensions && EqualIgnoringCase(t, e)
    ensures t[0] == '.' && forall m :: 0 < m < |t| ==> t[m] != '.'
    ensures Lower(t) == e
  {
    ImageExtensionChars(e);
    assert LowerChar(t[0]) == e[0];
    forall m | 0 < m < |t| ensures t[m] != '.' {
      assert LowerChar(t[m]) == e[m];
    }
    forall i | 0 <= i < |e| ensures Lower(t)[i] == e[i] {
      assert LowerChar(t[i]) == LowerChar(e[i]);
    }
  }

  /** The extension test accepts exactly the names that end with an image extension. */
  lemma HasImageExtensionIff(name: string)
    ensures HasImageExtension(name) <==> EndsWithImageExtension(name)
  {
    if HasImageExtension(name) {
      ImageExtensionEnds(name);
    }
    if EndsWithImageExtension(name) {
      EndsImageExtension(name);
    }
  }

  /**
   * `isImageFile`: the path names an existing regular file (`isFile`, what
   * `os.path.isfile` reports) and ends, ignoring case, with an image
   * extension.
   */
  function IsImageFile(name: string, isFile: bool): (b: bool)
    ensures b <==> isFile && EndsWithImageExtension(name)
  {
    HasImageExtensionIff(name);
    isFile && HasImageExtension(name)
  }
}

=== FILE: books.dfy ===
/**
 * The ordered list of image files of a book and the editing operations of the
 * book window on it (book.py): shifting selected entries up or down by one,
 * appending files not yet listed, and removing selected files.
 */
module Books {

  // ------------------------------------------------------------------ shifting

  /** The list with the entries at `i` and `j` exchanged. */
  function Swap<T>(s: seq<T>, i: nat, j: nat): (r: seq<T>)
    requires i < |s| && j < |s|
    ensures |r| == |s| && r[i] == s[j] && r[j] == s[i]
    ensures forall k :: 0 <= k < |s| && k != i && k != j ==> r[k] == s[k]
  {
    s[i := s[j]][j := s[i]]
  }

  /**
   * The bounds test of `shiftImageFile` against a list of `count` entries: for
   * a row of the list and a step of one, the shift is valid exactly when its
   * target row exists.
   */
  function ValidShift(count: nat, row: int, delta: int): (ok: bool)
    ensures (delta == 1 || delta == -1) && 0 <= row < count ==> (ok <==> 0 <= row + delta < count)
  {
    (delta > 0 && row < count - delta) || (delta < 0 && row >= -delta)
  }

  /** `shiftImageFile` on the list: swap with the neighbour when the shift is valid. */
  function ShiftOne<T>(s: seq<T>, row: int, delta: int): (r: seq<T>)
    requires delta == 1 || delta == -1
    requires 0 <= row < |s|
    ensures |r| == |s|
    ensures !ValidShift(|s|, row, delta) ==> r == s
    ensures ValidShift(|s|, row, delta) ==>
      0 <= row + delta < |s| && r[row] == s[row + delta] && r[row + delta] == s[row] &&
      forall k :: 0 <= k < |s| && k != row && k != row + delta ==> r[k] == s[k]
  {
    if ValidShift(|s|, row, delta) then Swap(s, row, row + delta) else s
  }

  /** Shifting an entry and then shifting it back restores the list. */
  lemma ShiftBack<T>(s: seq<T>, row: int, delta: int)
    requires delta == 1 || delta == -1
    requires 0 <= row < |s| && ValidShift(|s|, row, delta)
    ensures 0 <= row + delta < |s| && ValidShift(|s|, row + delta, -delta)
    ensures ShiftOne(ShiftOne(s, row, delta), row + delta, -delta) == s
  {
    var once := ShiftOne(s, row, delta);
    var twice := ShiftOne(once, row + delta, -delta);
    assert forall k :: 0 <= k < |s| ==> twice[k] == s[k];
  }

  /** Every row of `rows` indexes a list of `count` entries. */
  predicate RowsIn(rows: seq<int>, count: nat)
  {
    forall i :: 0 <= i < |rows| ==> 0 <= rows[i] < count
  }

  /**
   * The first n shifts of `order`, one after the other, each on the result of
   * the previous ones.
   */
  function ShiftFirst<T>(s: seq<T>, order: seq<int>, n: nat, delta: int): (r: seq<T>)
    requires delta == 1 || delta == -1
    requires n <= |order| && RowsIn(order, |s|)
    ensures |r| == |s|
  {
    if n == 0 then s else ShiftOne(ShiftFirst(s, order, n - 1, delta), order[n - 1], delta)
  }

  /** Shifting only reorders the list: the same entries, each as often as before. */
  lemma {:induction false} ShiftFirstPermutes<T>(s: seq<T>, order: seq<int>, n: nat, delta: int)
    requires delta == 1 || delta == -1
    requires n <= |order| && RowsIn(order, |s|)
    ensures multiset(ShiftFirst(s, order, n, delta)) == multiset(s)
  {
    if n > 0 {
      ShiftFirstPermutes(s, order, n - 1, delta);
      ShiftOnePermutes(ShiftFirst(s, order, n - 1, delta), order[n - 1], delta);
    }
  }

  /** One shift only reorders the list. */
  lemma ShiftOnePermutes<T>(s: seq<T>, row: int, delta: int)
    requires delta == 1 || delta == -1
    requires 0 <= row < |s|
    ensures multiset(ShiftOne(s, row, delta)) == multiset(s)
  {
    if ValidShift(|s|, row, delta) {
      var t := s[row := s[row + delta]];
      assert multiset(t) == multiset(s) - multiset{s[row]} + multiset{s[row + delta]};
      assert ShiftOne(s, row, delta) == t[row + delta := s[row]];
    }
  }

  /** Whether one of the first n shifts of `order` was valid when its turn came. */
  function AnyShifted<T>(s: seq<T>, order: seq<int>, n: nat, delta: int): bool
    requires delta == 1 || delta == -1
    requires n <= |order| && RowsIn(order, |s|)
  {
    n > 0 && (AnyShifted(s, order, n - 1, delta) || ValidShift(|s|, order[n - 1], delta))
  }

  /** Nothing changes when none of the shifts is valid. */
  lemma {:induction false} NoShiftNoChange<T>(s: seq<T>, order: seq<int>, n: nat, delta: int)
    requires delta == 1 || delta == -1
    requires n <= |order| && RowsIn(order, |s|)
    requires !AnyShifted(s, order, n, delta)
    ensures ShiftFirst(s, order, n, delta) == s
  {
    if n > 0 {
      NoShiftNoChange(s, order, n - 1, delta);
    }
  }

  function Reverse<T>(s: seq<T>): (r: seq<T>)
    ensures |r| == |s|
    ensures forall i :: 0 <= i < |s| ==> r[i] == s[|s| - 1 - i]
  {
    if s == [] then [] else Reverse(s[1..]) + [s[0]]
  }

  predicate StrictlyIncreasing(rows: seq<int>)
  {
    forall i, j :: 0 <= i < j < |rows| ==> rows[i] < rows[j]
  }

  predicate StrictlyDecreasing(rows: seq<int>)
  {
    forall i, j :: 0 <= i < j < |rows| ==> rows[i] > rows[j]
  }

  /**
   * The order in which `shiftImageFiles` visits the sorted selected rows:
   * ascending when moving up, descending when moving down.
   */
  function VisitOrder(rows: seq<int>, delta: int): (order: seq<int>)
    ensures |order| == |rows|
  {
    if delta < 0 then rows else Reverse(rows)
  }

  /**
   * Moving up visits the sorted rows from the top, moving down from the
   * bottom; either way every selected row is visited once.
   */
  lemma VisitOrderDirection(rows: seq<int>, delta: int)
    requires StrictlyIncreasing(rows)
    ensures multiset(VisitOrder(rows, delta)) == multiset(rows)
    ensures delta < 0 ==> VisitOrder(rows, delta) == rows
    ensures delta >= 0 ==> forall i :: 0 <= i < |rows| ==> VisitOrder(rows, delta)[i] == rows[|rows| - 1 - i]
    ensures delta < 0 ==> StrictlyIncreasing(VisitOrder(rows, delta))
    ensures delta >= 0 ==> StrictlyDecreasing(VisitOrder(rows, delta))
  {
    if delta >= 0 {
      ReverseMultiset(rows);
    }
  }

  /** Every visited row is one of the selected rows. */
  lemma VisitOrderRowsIn(rows: seq<int>, delta: int, count: nat)
    requires RowsIn(rows, count)
    ensures RowsIn(VisitOrder(rows, delta), count)
  {
    var order := VisitOrder(rows, delta);
    forall i | 0 <= i < |order|
      ensures 0 <= order[i] < count
    {
      if delta >= 0 {
        assert order[i] == rows[|rows| - 1 - i];
      }
    }
  }

  lemma {:induction false} ReverseMultiset<T>(s: seq<T>)
    ensures multiset(Reverse(s)) == multiset(s)
  {
    if s != [] {
      ReverseMultiset(s[1..]);
      assert s == [s[0]] + s[1..];
    }
  }

  /** The rows 0, 1, ..., m - 1: a selected block at the top of the list. */
  function TopRows(m: nat): (rows: seq<int>)
    ensures |rows| == m && forall i :: 0 <= i < m ==> rows[i] == i
  {
    if m == 0 then [] else TopRows(m - 1) + [m - 1]
  }

  /**
   * `r` is `s` with its top entry sunk to row m - 1: every other entry of the
   * first m rows one row higher, and the rest of the list as it was.
   */
  ghost predicate SankTop<T>(s: seq<T>, r: seq<T>, m: nat)
    requires 1 <= m <= |s| && |r| == |s|
  {
    && r[m - 1] == s[0]
    && (forall k :: 0 <= k < m - 1 ==> r[k] == s[k + 1])
    && (forall k :: m <= k < |s| ==> r[k] == s[k])
  }

  /**
   * As written, a selected block at the top of the list does not stay put
   * when moved up: its first row cannot move, and each following row swaps
   * past it, so the top entry sinks to the bottom of the block, every other
   * entry of the block moves up one row, and the rest of the list stays.
   */
  lemma ShiftUpPinnedBlock<T>(s: seq<T>, m: nat)
    requires 1 <= m <= |s|
    ensures RowsIn(TopRows(m), |s|)
    ensures SankTop(s, ShiftFirst(s, TopRows(m), m, -1), m)
  {
    SinkBlock(s, TopRows(m), m);
  }

  /** The first m shifts up of an order that starts 0, 1, ..., m - 1 sink the top entry. */
  lemma {:induction false} SinkBlock<T>(s: seq<T>, order: seq<int>, m: nat)
    requires 1 <= m <= |order| && m <= |s| && RowsIn(order, |s|)
    requires forall k :: 0 <= k < m ==> order[k] == k
    ensures SankTop(s, ShiftFirst(s, order, m, -1), m)
  {
    if m == 1 {
      assert !ValidShift(|s|, 0, -1);
    } else {
      SinkBlock(s, order, m - 1);
      var prev := ShiftFirst(s, order, m - 1, -1);
      assert ValidShift(|prev|, m - 1, -1);
      SinkPastTop(s, prev, ShiftOne(prev, m - 1, -1), m);
    }
  }

  /** Swapping rows m - 2 and m - 1 extends the sunk block by one row. */
  lemma SinkPastTop<T>(s: seq<T>, prev: seq<T>, r: seq<T>, m: nat)
    requires 2 <= m <= |s| && |prev| == |s| && |r| == |s|
    requires SankTop(s, prev, m - 1)
    requires r[m - 1] == prev[m - 2] && r[m - 2] == prev[m - 1]
    requires forall k :: 0 <= k < |s| && k != m - 1 && k != m - 2 ==> r[k] == prev[k]
    ensures SankTop(s, r, m)
  {
  }

  // ------------------------------------------------------------------ adding

  /**
   * The files `addImageFiles` appends: those of `fs`, in order, that are not in
   * `listed` (the list as it was before the call; a file given twice is kept
   * twice).
   */
  function NewNames(fs: seq<string>, listed: seq<string>): (added: seq<string>)
    ensures |added| <= |fs|
    ensures forall k :: 0 <= k < |added| ==> added[k] in fs && added[k] !in listed
  {
    if fs == [] then []
    else
      var last := fs[|fs| - 1];
      NewNames(fs[..|fs| - 1], listed) + (if last in listed then [] else [last])
  }

  /** Taking one more file appends it unless it was listed. */
  lemma NewNamesStep(fs: seq<string>, listed: seq<string>, i: nat)
    requires i < |fs|
    ensures NewNames(fs[..i + 1], listed) ==
      NewNames(fs[..i], listed) + (if fs[i] in listed then [] else [fs[i]])
  {
    assert fs[..i + 1][..i] == fs[..i];
  }

  /** The list after one more file of `addImageFiles`'s loop. */
  lemma AddStep(fs: seq<string>, listed: seq<string>, i: nat, before: seq<string>, after: seq<string>)
    requires i < |fs|
    requires before == listed + NewNames(fs[..i], listed)
    requires after == if fs[i] in listed then before else before + [fs[i]]
    ensures after == listed + NewNames(fs[..i + 1], listed)
    ensures NewNames(fs[..i + 1], listed) != [] <==> NewNames(fs[..i], listed) != [] || fs[i] !in listed
  {
    NewNamesStep(fs, listed, i);
    if fs[i] !in listed {
      assert after == listed + (NewNames(fs[..i], listed) + [fs[i]]);
    }
  }

  /**
   * Each file is appended as many times as it is given, unless it was already
   * listed, in which case it is not appended at all.
   */
  lemma {:induction false} NewNamesCount(fs: seq<string>, listed: seq<string>, x: string)
    ensures multiset(NewNames(fs, listed))[x] == if x in listed then 0 else multiset(fs)[x]
  {
    if fs != [] {
      NewNamesCount(fs[..|fs| - 1], listed, x);
      assert fs == fs[..|fs| - 1] + [fs[|fs| - 1]];
    }
  }

  /** Python's `[f for f in fs if f not in listed]`, read from the front. */
  function Unlisted(fs: seq<string>, listed: seq<string>): seq<string>
  {
    if fs == [] then [] else (if fs[0] in listed then [] else [fs[0]]) + Unlisted(fs[1..], listed)
  }

  lemma {:induction false} UnlistedAppend(a: seq<string>, b: seq<string>, listed: seq<string>)
    ensures Unlisted(a + b, listed) == Unlisted(a, listed) + Unlisted(b, listed)
  {
    if a == [] {
      assert a + b == b;
    } else {
      UnlistedAppend(a[1..], b, listed);
      assert a + b != [] && (a + b)[0] == a[0] && (a + b)[1..] == a[1..] + b;
      var head := if a[0] in listed then [] else [a[0]];
      calc {
        Unlisted(a + b, listed);
        head + Unlisted(a[1..] + b, listed);
        head + (Unlisted(a[1..], listed) + Unlisted(b, listed));
        (head + Unlisted(a[1..], listed)) + Unlisted(b, listed);
      }
    }
  }

  /**
   * The appended files are the given ones that were not listed, in the order
   * they were given.
   */
  lemma {:induction false} NewNamesInOrder(fs: seq<string>, listed: seq<string>)
    ensures NewNames(fs, listed) == Unlisted(fs, listed)
  {
    if fs != [] {
      var front, last := fs[..|fs| - 1], fs[|fs| - 1];
      NewNamesInOrder(front, listed);
      assert fs == front + [last];
      UnlistedAppend(front, [last], listed);
    }
  }

  // ------------------------------------------------------------------ removing

  /** The index of the first occurrence of `x` in `s`. */
  function IndexOf(s: seq<string>, x: string): (k: nat)
    requires x in s
    ensures k < |s| && s[k] == x && x !in s[..k]
  {
    if s[0] == x then 0
    else
      var k := 1 + IndexOf(s[1..], x);
      assert s[..k] == [s[0]] + s[1..][..k - 1];
      k
  }

  /** `list.remove(x)`: the list without the first occurrence of `x`. */
  function RemoveFirst(s: seq<string>, x: string): (r: seq<string>)
    requires x in s
    ensures |r| == |s| - 1
  {
    if s[0] == x then s[1..] else [s[0]] + RemoveFirst(s[1..], x)
  }

  /** What `list.remove` removes is the first occurrence, and nothing else moves. */
  lemma {:induction false} RemoveFirstAt(s: seq<string>, x: string)
    requires x in s
    ensures RemoveFirst(s, x) == s[..IndexOf(s, x)] + s[IndexOf(s, x) + 1..]
  {
    if s[0] != x {
      RemoveFirstAt(s[1..], x);
      var k := IndexOf(s[1..], x);
      assert IndexOf(s, x) == k + 1;
      calc {
        RemoveFirst(s, x);
        [s[0]] + RemoveFirst(s[1..], x);
        [s[0]] + (s[1..][..k] + s[1..][k + 1..]);
        ([s[0]] + s[1..][..k]) + s[1..][k + 1..];
        { assert s[..k + 1] == [s[0]] + s[1..][..k];
          assert s[k + 2..] == s[1..][k + 1..]; }
        s[..k + 1] + s[k + 2..];
      }
    }
  }

  /** `list.remove` takes exactly one copy of `x` out of the list. */
  lemma {:induction false} RemoveFirstMultiset(s: seq<string>, x: string)
    requires x in s
    ensures multiset(RemoveFirst(s, x)) == multiset(s) - multiset{x}
  {
    assert s == [s[0]] + s[1..];
    if s[0] != x {
      RemoveFirstMultiset(s[1..], x);
    }
  }

  /** Removing `names` one after the other never asks for a name that is no longer there. */
  predicate Removable(s: seq<string>, names: seq<string>)
    decreases |names|
  {
    names == [] || (names[0] in s && Removable(RemoveFirst(s, names[0]), names[1..]))
  }

  /** The list after removing, in order, the first occurrence of each of `names`. */
  function RemoveAll(s: seq<string>, names: seq<string>): (r: seq<string>)
    requires Removable(s, names)
    ensures |r| == |s| - |names|
    decreases |names|
  {
    if names == [] then s else RemoveAll(RemoveFirst(s, names[0]), names[1..])
  }

  /** Names that the list holds, counting repeats, can all be removed. */
  lemma {:induction false} PresentRemovable(s: seq<string>, names: seq<string>)
    requires multiset(names) <= multiset(s)
    ensures Removable(s, names)
    decreases |names|
  {
    if names != [] {
      assert names == [names[0]] + names[1..];
      assert names[0] in multiset(s);
      RemoveFirstMultiset(s, names[0]);
      PresentRemovable(RemoveFirst(s, names[0]), names[1..]);
    }
  }

  /** The removals take exactly one copy of each name out of the list. */
  lemma {:induction false} RemoveAllMultiset(s: seq<string>, names: seq<string>)
    requires Removable(s, names)
    ensures multiset(RemoveAll(s, names)) == multiset(s) - multiset(names)
    decreases |names|
  {
    if names != [] {
      assert names == [names[0]] + names[1..];
      RemoveFirstMultiset(s, names[0]);
      RemoveAllMultiset(RemoveFirst(s, names[0]), names[1..]);
    }
  }

  // ------------------------------------------------------------------ the book

  /** A book: its ordered image files and whether it changed since it was last saved. */
  class Book {
    var images: seq<string>
    var modified: bool

    /** A new book has no images and is unmodified. */
    constructor()
      ensures images == [] && !modified
    {
      images := [];
      modified := false;
    }

    /**
     * `shiftImageFile`: swap the entry at `row` with its neighbour `row + delta`
     * when that is a valid shift, and mark the book modified; otherwise change nothing.
     */
    method ShiftImageFile(row: int, delta: int)
      requires delta == 1 || delta == -1
      requires 0 <= row < |images|
      modifies this
      ensures images == ShiftOne(old(images), row, delta)
      ensures modified == (old(modified) || ValidShift(|old(images)|, row, delta))
    {
      var valid := (delta > 0 && row < |images| - delta) || (delta < 0 && row >= -delta);
      if !valid {
        return;
      }
      modified := true;
      var moved, displaced := images[row + delta], images[row];
      images := images[row := moved][row + delta := displaced];
    }

    /**
     * `shiftImageFiles`: shift every selected row (given sorted, as the source
     * sorts the selection) by `delta`, in the order `VisitOrder` gives.
     */
    method ShiftImageFiles(rows: seq<int>, delta: int)
      requires delta == 1 || delta == -1
      requires StrictlyIncreasing(rows) && RowsIn(rows, |images|)
      modifies this
      ensures RowsIn(VisitOrder(rows, delta), |old(images)|)
      ensures images == ShiftFirst(old(images), VisitOrder(rows, delta), |rows|, delta)
      ensures modified == (old(modified) || AnyShifted(old(images), VisitOrder(rows, delta), |rows|, delta))
    {
      VisitOrderRowsIn(rows, delta, |images|);
      ShiftInOrder(VisitOrder(rows, delta), delta);
    }

    /** The loop of `shiftImageFiles`: `shiftImageFile` on each row of `order` in turn. */
    method ShiftInOrder(order: seq<int>, delta: int)
      requires delta == 1 || delta == -1
      requires RowsIn(order, |images|)
      modifies this
      ensures images == ShiftFirst(old(images), order, |order|, delta)
      ensures modified == (old(modified) || AnyShifted(old(images), order, |order|, delta))
    {
      ghost var s0 := images;
      var i := 0;
      while i < |order|
        invariant 0 <= i <= |order|
        invariant images == ShiftFirst(s0, order, i, delta)
        invariant modified == (old(modified) || AnyShifted(s0, order, i, delta))
      {
        ShiftImageFile(order[i], delta);
        i := i + 1;
      }
    }

    /**
     * `addImageFiles`: append, in order, each given file that was not listed
     * before the call; the book is modified when something was appended.
     */
    method AddImageFiles(filenames: seq<string>)
      modifies this
      ensures images == old(images) + NewNames(filenames, old(images))
      ensures modified == (old(modified) || NewNames(filenames, old(images)) != [])
    {
      var listed := images;
      var i := 0;
      while i < |filenames|
        invariant 0 <= i <= |filenames|
        invariant images == listed + NewNames(filenames[..i], listed)
        invariant modified == (old(modified) || NewNames(filenames[..i], listed) != [])
      {
        ghost var before := images;
        if filenames[i] !in listed {
          images := images + [filenames[i]];
          modified := true;
        }
        AddStep(filenames, listed, i, before, images);
        i := i + 1;
      }
      assert filenames[..|filenames|] == filenames;
    }

    /**
     * `removeImageFiles`: remove the first occurrence of each selected file;
     * the book is modified when anything was selected.
     */
    method RemoveImageFiles(names: seq<string>)
      requires Removable(images, names)
      modifies this
      ensures images == RemoveAll(old(images), names)
      ensures modified == (old(modified) || names != [])
    {
      var i := 0;
      while i < |names|
        invariant 0 <= i <= |names| && Removable(images, names[i..])
        invariant RemoveAll(images, names[i..]) == RemoveAll(old(images), names)
        invariant modified == (old(modified) || i > 0)
      {
        assert names[i..][1..] == names[i + 1..];
        images := RemoveFirst(images, names[i]);
        modified := true;
        i := i + 1;
      }
    }
  }
}

=== FILE: image_flags.dfy ===
/**
 * The conversion options of a book, packed into an integer bit mask
 * (`ImageFlags` in image.py).
 */
module ImageFlags {
  import opened Wrappers

  /** Every flag the program refers to by name. */
  datatype Flag = Orient | Shrink | Frame | Quantize | Enlarge | Split | RightToLeft

  /**
   * The bit the `ImageFlags` class declares for a flag, as the class is written:
   * it declares six bits and has no `RightToLeft` member, so looking that one
   * up fails (Python raises AttributeError).
   */
  function DeclaredBit(f: Flag): (b: Option<nat>)
    ensures b.None? <==> f == RightToLeft
    ensures b.Some? ==> b.value == Bit(f)
  {
    match f
    case Orient => Some(1)
    case Shrink => Some(2)
    case Frame => Some(4)
    case Quantize => Some(8)
    case Enlarge => Some(16)
    case Split => Some(32)
    case RightToLeft => None
  }

  /** The position of a flag's bit; RightToLeft takes the next free one, 6. */
  function Index(f: Flag): (k: nat)
    ensures k < 7
  {
    match f
    case Orient => 0
    case Shrink => 1
    case Frame => 2
    case Quantize => 3
    case Enlarge => 4
    case Split => 5
    case RightToLeft => 6
  }

  /** The flag at a bit position below 7. */
  function FlagAt(k: nat): (f: Flag)
    requires k < 7
    ensures Index(f) == k
  {
    if k == 0 then Orient
    else if k == 1 then Shrink
    else if k == 2 then Frame
    else if k == 3 then Quantize
    else if k == 4 then Enlarge
    else if k == 5 then Split
    else RightToLeft
  }

  function Pow2(k: nat): (p: nat)
    ensures p >= 1
  {
    if k == 0 then 1 else 2 * Pow2(k - 1)
  }

  /**
   * The bit each flag occupies once `RightToLeft` is given the next free bit,
   * 1 << 6, after the comment that new flags are added at the end.
   */
  function Bit(f: Flag): (b: nat)
    ensures b == Pow2(Index(f))
  {
    match f
    case Orient => 1
    case Shrink => 2
    case Frame => 4
    case Quantize => 8
    case Enlarge => 16
    case Split => 32
    case RightToLeft => assert Pow2(6) == 64; 64
  }

  /** No two flags share a bit, so a mask can hold any combination of them. */
  lemma BitsDistinct(f: Flag, g: Flag)
    ensures Bit(f) == Bit(g) <==> f == g
  {
  }

  /** `mask & (1 << k) != 0` for a non-negative mask. */
  predicate TestBit(mask: nat, k: nat)
    decreases k
  {
    if k == 0 then mask % 2 == 1 else TestBit(mask / 2, k - 1)
  }

  lemma {:induction false} MulAtLeast(d: nat, k: nat)
    requires k >= 1
    ensures d * k >= d
  {
    if k > 1 {
      MulAtLeast(d, k - 1);
      assert d * k == d * (k - 1) + d;
    }
  }

  /** Division is determined by the quotient-remainder decomposition. */
  lemma DivUnique(m: nat, d: nat, q: nat, r: nat)
    requires d > 0 && r < d && m == d * q + r
    ensures m / d == q
  {
    var q', r' := m / d, m % d;
    assert m == d * q' + r';
    if q' < q {
      assert d * q == d * q' + d * (q - q');
      MulAtLeast(d, q - q');
    } else if q < q' {
      assert d * q' == d * q + d * (q' - q);
      MulAtLeast(d, q' - q);
    }
  }

  lemma DivHalf(m: nat, a: nat)
    requires a >= 1
    ensures m / 2 / a == m / (2 * a)
  {
    var q, r := m / (2 * a), m % (2 * a);
    var h := r / 2;
    assert m == (2 * a) * q + r;
    assert r == 2 * h + r % 2;
    assert (2 * a) * q == 2 * (a * q);
    DivUnique(m, 2, a * q + h, r % 2);
    assert h < a;
    DivUnique(a * q + h, a, q, h);
  }

  /** Bit k is the parity of the mask divided by 2^k: `(mask / bit) % 2`. */
  lemma {:induction false} TestBitDiv(mask: nat, k: nat)
    ensures TestBit(mask, k) == ((mask / Pow2(k)) % 2 == 1)
  {
    if k > 0 {
      TestBitDiv(mask / 2, k - 1);
      DivHalf(mask, Pow2(k - 1));
    }
  }

  /** `mask & ImageFlags.<f> != 0`: the flag's bit is set in the mask. */
  function Has(mask: nat, f: Flag): (on: bool)
    ensures on <==> (mask / Bit(f)) % 2 == 1
  {
    TestBitDiv(mask, Index(f));
    TestBit(mask, Index(f))
  }

  /** The mask whose bit k is `bits[k]`: what OR-ing single-bit flags builds. */
  function FromBits(bits: seq<bool>): nat
  {
    if bits == [] then 0 else (if bits[0] then 1 else 0) + 2 * FromBits(bits[1..])
  }

  lemma {:induction false} NoBitOfZero(k: nat)
    ensures !TestBit(0, k)
  {
    if k > 0 {
      NoBitOfZero(k - 1);
    }
  }

  /** A mask built from `n` bits is below 2^n. */
  lemma {:induction false} FromBitsBounded(bits: seq<bool>)
    ensures FromBits(bits) < Pow2(|bits|)
  {
    if bits != [] {
      FromBitsBounded(bits[1..]);
    }
  }

  /** A mask with low bit `b` and the rest `y`: `b + 2 * y` halves to `y` with remainder `b`. */
  lemma HalfOf(b: nat, y: nat)
    requires b < 2
    ensures (b + 2 * y) / 2 == y && (b + 2 * y) % 2 == b
  {
    DivUnique(b + 2 * y, 2, y, b);
  }

  /** Bit k of a built mask is the k-th boolean, and every higher bit is clear. */
  lemma {:induction false} TestFromBits(bits: seq<bool>, k: nat)
    ensures TestBit(FromBits(bits), k) == (k < |bits| && bits[k])
  {
    if bits == [] {
      NoBitOfZero(k);
    } else {
      var low := if bits[0] then 1 else 0;
      HalfOf(low, FromBits(bits[1..]));
      if k > 0 {
        TestFromBits(bits[1..], k - 1);
      }
    }
  }

  /** A flag is in a mask built from seven booleans exactly when its boolean is true. */
  lemma HasFromBits(bits: seq<bool>, f: Flag)
    requires |bits| == 7
    ensures Has(FromBits(bits), f) == bits[Index(f)]
  {
    TestFromBits(bits, Index(f));
  }

  /** Two masks below 2^n that agree on their n low bits are equal. */
  lemma {:induction false} SameBits(a: nat, b: nat, n: nat)
    requires a < Pow2(n) && b < Pow2(n)
    requires forall k: nat :: k < n ==> TestBit(a, k) == TestBit(b, k)
    ensures a == b
  {
    if n > 0 {
      assert TestBit(a, 0) == TestBit(b, 0);
      forall k: nat | k < n - 1
        ensures TestBit(a / 2, k) == TestBit(b / 2, k)
      {
        assert TestBit(a, k + 1) == TestBit(b, k + 1);
      }
      SameBits(a / 2, b / 2, n - 1);
    }
  }

  /** Two masks of the seven flags that hold the same flags are the same mask. */
  lemma SameFlags(a: nat, b: nat)
    requires a < 128 && b < 128
    requires forall f :: Has(a, f) == Has(b, f)
    ensures a == b
  {
    forall k: nat | k < 7
      ensures TestBit(a, k) == TestBit(b, k)
    {
      assert Has(a, FlagAt(k)) == Has(b, FlagAt(k));
    }
    assert Pow2(7) == 128;
    SameBits(a, b, 7);
  }
}

=== FILE: imaging.dfy ===
/**
 * The page conversion of image.py, with an image reduced to its size, its
 * colour mode and, once quantised, its palette. Every stage takes an image and
 * returns a new one; the pixels themselves are not modelled.
 */
module Imaging {
  import opened Wrappers
  import opened ImageFlags
  import opened KindleData

  /** An image: size in pixels, PIL colour mode ("RGB", "L", "P", ...) and attached palette. */
  datatype Image = Image(width: nat, height: nat, mode: string, palette: seq<Byte>)

  /** An image a decoder produced: never empty. */
  predicate Decoded(img: Image)
  {
    img.width > 0 && img.height > 0
  }

  predicate Fits(img: Image, size: Size)
  {
    img.width <= size.width && img.height <= size.height
  }

  function Min(a: int, b: int): int
  {
    if a < b then a else b
  }

  function Max(a: int, b: int): int
  {
    if a < b then b else a
  }

  // ---------------------------------------------------------------- quantizeImage

  /**
   * `block * n` on a Python list: n copies of block, one after the other, so
   * the list starts with block and repeats itself every |block| entries.
   */
  function Repeat(block: seq<Byte>, n: nat): (r: seq<Byte>)
    ensures |r| == n * |block|
    ensures n > 0 ==> r[..|block|] == block
    ensures forall i :: |block| <= i < |r| ==> r[i] == r[i - |block|]
  {
    if n == 0 then [] else
      var rest := Repeat(block, n - 1);
      assert n - 1 > 0 ==> rest[..|block|] == block;
      block + rest
  }

  /** The number of colours of a flat palette (Python 2 integer division). */
  function Colours(palette: seq<Byte>): nat
  {
    |palette| / 3
  }

  /**
   * The palette handed to PIL: a palette of fewer than 256 colours is padded
   * with copies of its first triple up to 256 colours; a longer one is kept.
   */
  function PadPalette(palette: seq<Byte>): (r: seq<Byte>)
    ensures |r| >= |palette| && r[..|palette|] == palette
    ensures Colours(palette) >= 256 ==> r == palette
    ensures 3 <= |palette| && Colours(palette) < 256 ==>
      && |r| == |palette| + 3 * (256 - Colours(palette))
      && r[|palette|..|palette| + 3] == palette[..3]
      && forall i :: |palette| + 3 <= i < |r| ==> r[i] == r[i - 3]
  {
    if Colours(palette) < 256 then
      var padding := Repeat(palette[..Min(3, |palette|)], 256 - Colours(palette));
      assert (palette + padding)[|palette|..] == padding;
      palette + padding
    else
      palette
  }

  /** Every triple from `first` to the end of a list that repeats every three entries is the same. */
  lemma {:induction false} PeriodicTriples(r: seq<Byte>, first: nat, k: nat)
    requires first + 3 <= |r| && 3 * k + 3 <= |r| && first <= 3 * k && first % 3 == 0
    requires forall i :: first + 3 <= i < |r| ==> r[i] == r[i - 3]
    ensures r[3 * k..3 * k + 3] == r[first..first + 3]
    decreases k
  {
    if 3 * k > first {
      PeriodicTriples(r, first, k - 1);
      assert r[3 * k..3 * k + 3] == r[3 * (k - 1)..3 * (k - 1) + 3];
    }
  }

  /**
   * A palette of whole triples is padded to exactly 256 colours (768 bytes),
   * and every added triple is a copy of the first one.
   */
  lemma PadPaletteTo256(palette: seq<Byte>)
    requires |palette| % 3 == 0 && 3 <= |palette| < 768
    ensures |PadPalette(palette)| == 768
    ensures forall k :: Colours(palette) <= k < 256 ==> PadPalette(palette)[3 * k..3 * k + 3] == palette[..3]
  {
    var r := PadPalette(palette);
    forall k | Colours(palette) <= k < 256 ensures r[3 * k..3 * k + 3] == palette[..3] {
      PeriodicTriples(r, |palette|, k);
    }
  }

  /**
   * Both device palettes are padded to 768 bytes, and colour 255 of the padded
   * palette is a copy of colour 0.
   */
  lemma DevicePalettePadded(palette: seq<Byte>)
    requires GreyRamp(palette)
    ensures |PadPalette(palette)| == 768
    ensures PadPalette(palette)[765..] == palette[..3] == [0, 0, 0]
  {
    PadPaletteTo256(palette);
    assert PadPalette(palette)[765..] == PadPalette(palette)[3 * 255..3 * 255 + 3];
  }

  /**
   * `quantizeImage`: a palette image of the same size, on the padded palette.
   * The imaging library quantises to a given palette only from "RGB" or "L".
   */
  function QuantizeImage(img: Image, palette: seq<Byte>): (r: Image)
    requires img.mode == "RGB" || img.mode == "L"
    ensures r.width == img.width && r.height == img.height
    ensures r.mode == "P" && r.palette == PadPalette(palette)
  {
    Image(img.width, img.height, "P", PadPalette(palette))
  }

  // ---------------------------------------------------------------- resizeImage

  datatype Filter = Antialias | Bicubic

  /** The call `image.resize((width, height), filter)` that resizeImage makes. */
  datatype Resample = Resample(width: nat, height: nat, filter: Filter)

  /**
   * `int(target * (num / den))` on exact ratios: target scaled by num/den and
   * rounded down.
   */
  function Scale(target: nat, num: nat, den: nat): (q: nat)
    requires den > 0
    ensures q * den <= target * num < (q + 1) * den
  {
    target * num / den
  }

  /** A side scaled by a ratio that keeps it below a bound stays below it. */
  lemma ScaleBelow(target: nat, num: nat, den: nat, bound: nat)
    requires den > 0 && target * num < bound * den
    ensures Scale(target, num, den) < bound
  {
  }

  /**
   * The size `resizeImage` resamples a w x h image to for a width x height
   * target: the side that is relatively larger binds at the target, the other
   * keeps the aspect rounded down, and an equal aspect gives the target.
   */
  function NewSize(w: nat, h: nat, width: nat, height: nat): (s: (nat, nat))
    requires w > 0 && h > 0 && width > 0 && height > 0
    ensures s.0 <= width && s.1 <= height
    ensures w * height > h * width ==> s.0 == width && s.1 * w <= width * h < (s.1 + 1) * w
    ensures w * height < h * width ==> s.1 == height && s.0 * h <= height * w < (s.0 + 1) * h
    ensures w * height == h * width ==> s.0 == width && s.1 == height
  {
    if w * height > h * width then
      ScaleBelow(width, h, w, height);
      (width, Scale(width, h, w))
    else if w * height < h * width then
      ScaleBelow(height, w, h, width);
      (Scale(height, w, h), height)
    else
      (width, height)
  }

  /**
   * What `resizeImage` does to an image: nothing (None) when enlarging or
   * shrinking is needed but not allowed, otherwise one resample. The float
   * ratios of the source are compared exactly by cross-multiplication and the
   * derived side is rounded down.
   */
  function PlanResize(img: Image, size: Size, shrink: bool, enlarge: bool): (r: Option<Resample>)
    requires Decoded(img) && size.width > 0 && size.height > 0
    // No enlarging unless allowed: both sides strictly below the target.
    ensures img.width < size.width && img.height < size.height && !enlarge ==> r == None
    // No shrinking unless allowed: some side above the target.
    ensures (img.width > size.width || img.height > size.height) && !shrink ==> r == None
    ensures r == None ==>
      (img.width < size.width && img.height < size.height && !enlarge) ||
      ((img.width > size.width || img.height > size.height) && !shrink)
    ensures r.Some? ==> r.value.width <= size.width && r.value.height <= size.height
    // Relatively wider than the target: the width binds, the height keeps the aspect rounded down.
    ensures r.Some? && img.width * size.height > img.height * size.width ==>
      && r.value.width == size.width
      && r.value.height * img.width <= size.width * img.height < (r.value.height + 1) * img.width
    // Relatively taller: the height binds, the width keeps the aspect rounded down.
    ensures r.Some? && img.width * size.height < img.height * size.width ==>
      && r.value.height == size.height
      && r.value.width * img.height <= size.height * img.width < (r.value.width + 1) * img.height
    // Same aspect as the target: exactly the target size.
    ensures r.Some? && img.width * size.height == img.height * size.width ==>
      r.value.width == size.width && r.value.height == size.height
    // The antialiasing filter exactly when some side gets smaller.
    ensures r.Some? ==>
      (r.value.filter == Antialias <==> r.value.width < img.width || r.value.height < img.height)
  {
    var w, h := img.width, img.height;
    if w < size.width && h < size.height && !enlarge then None
    else if (w > size.width || h > size.height) && !shrink then None
    else
      var newSize := NewSize(w, h, size.width, size.height);
      var filter := if newSize.0 < w || newSize.1 < h then Antialias else Bicubic;
      Some(Resample(newSize.0, newSize.1, filter))
  }

  /** `resizeImage`: the input itself, or the resampled image in the same mode. */
  function ResizeImage(img: Image, size: Size, shrink: bool, enlarge: bool): (r: Image)
    requires Decoded(img) && size.width > 0 && size.height > 0
    ensures r.mode == img.mode && r.palette == img.palette
    ensures PlanResize(img, size, shrink, enlarge) == None ==> r == img
    ensures PlanResize(img, size, shrink, enlarge).Some? ==>
      r.width == PlanResize(img, size, shrink, enlarge).value.width &&
      r.height == PlanResize(img, size, shrink, enlarge).value.height
    ensures PlanResize(img, size, shrink, enlarge).Some? ==> Fits(r, size)
  {
    match PlanResize(img, size, shrink, enlarge)
    case None => img
    case Some(p) => Image(p.width, p.height, img.mode, img.palette)
  }

  /**
   * With shrinking allowed the result always fits the target: either the
   * image already fitted (nothing needed enlarging or enlarging was off), or
   * it was resampled to fit.
   */
  lemma ShrinkFits(img: Image, size: Size, enlarge: bool)
    requires Decoded(img) && size.width > 0 && size.height > 0
    ensures Fits(ResizeImage(img, size, true, enlarge), size)
  {
  }

  // ---------------------------------------------------------------- formatImage

  /** `formatImage`: convert to three-channel colour unless already so. */
  function FormatImage(img: Image): (r: Image)
    ensures r.mode == "RGB"
    ensures r.width == img.width && r.height == img.height
    ensures img.mode == "RGB" ==> r == img
    ensures img.mode != "RGB" ==> r.palette == []
  {
    if img.mode == "RGB" then img else Image(img.width, img.height, "RGB", [])
  }

  // ---------------------------------------------------------------- orientImage

  predicate Landscape(width: nat, height: nat)
  {
    width > height
  }

  /**
   * `orientImage`: a quarter turn (with expansion, so the sides swap) exactly
   * when the image and the device disagree on being landscape. The turned
   * size is taken as the exact swap; the library's float rounding of the
   * expanded size is not modelled.
   */
  function OrientImage(img: Image, size: Size): (r: Image)
    ensures Landscape(img.width, img.height) != Landscape(size.width, size.height) ==>
      r == Image(img.height, img.width, img.mode, img.palette)
    ensures Landscape(img.width, img.height) == Landscape(size.width, size.height) ==> r == img
  {
    if Landscape(img.width, img.height) != Landscape(size.width, size.height) then
      Image(img.height, img.width, img.mode, img.palette)
    else
      img
  }

  /**
   * A non-square image comes out of orientImage with the device's
   * orientation, so orienting it again changes nothing.
   */
  lemma OrientSettles(img: Image, size: Size)
    requires img.width != img.height
    ensures var r := OrientImage(img, size);
      Landscape(r.width, r.height) == Landscape(size.width, size.height) && OrientImage(r, size) == r
  {
  }

  // ---------------------------------------------------------------- frameImage

  datatype Point = Point(x: int, y: int)

  /**
   * What frameImage paints: a canvas of the background colour, the image
   * pasted at `paste`, and a rectangle outline of the foreground colour with
   * corners `outlineFrom` and `outlineTo` (both inclusive).
   */
  datatype Framed = Framed(
    canvas: Image, background: seq<Byte>,
    paste: Point,
    outlineFrom: Point, outlineTo: Point, foreground: seq<Byte>)

  /** One axis of the paste point: centred, rounded down, never negative. */
  function Centre(device: nat, image: nat): (offset: nat)
    ensures image <= device ==> offset + image <= device && 0 <= (device - image) - 2 * offset <= 1
    ensures image >= device ==> offset == 0
  {
    Max(0, (device - image) / 2)
  }

  /**
   * `frameImage`: the canvas is exactly the device size in the image's mode;
   * the image is centred on it (clamped to the top-left corner when larger, so
   * the part beyond the canvas is cut off); the outline starts one pixel
   * before the image and ends two pixels after its last row and column.
   */
  function FrameImage(img: Image, foreground: seq<Byte>, background: seq<Byte>, size: Size): (f: Framed)
    ensures f.canvas.width == size.width && f.canvas.height == size.height
    ensures f.canvas.mode == img.mode
    ensures f.background == background && f.foreground == foreground
    ensures f.paste.x == Centre(size.width, img.width) && f.paste.y == Centre(size.height, img.height)
    ensures f.outlineFrom == Point(f.paste.x - 1, f.paste.y - 1)
    ensures f.outlineTo == Point(f.paste.x + img.width + 1, f.paste.y + img.height + 1)
  {
    var paste := Point(Centre(size.width, img.width), Centre(size.height, img.height));
    Framed(
      Image(size.width, size.height, img.mode, []), background,
      paste,
      Point(paste.x - 1, paste.y - 1),
      Point(paste.x + img.width + 1, paste.y + img.height + 1),
      foreground)
  }

  /**
   * The framing geometry as written: an image that fits lies wholly on the
   * canvas with margins differing by at most one pixel (the extra one on the
   * right and bottom); the outline touches the image on the left and top and
   * leaves a one-pixel gap on the right and bottom.
   */
  lemma FrameGeometry(img: Image, foreground: seq<Byte>, background: seq<Byte>, size: Size)
    requires Fits(img, size)
    ensures var f := FrameImage(img, foreground, background, size);
      && 0 <= f.paste.x && f.paste.x + img.width <= size.width
      && 0 <= f.paste.y && f.paste.y + img.height <= size.height
      && 0 <= (size.width - (f.paste.x + img.width)) - f.paste.x <= 1
      && 0 <= (size.height - (f.paste.y + img.height)) - f.paste.y <= 1
      && f.paste.x - f.outlineFrom.x == 1 && f.paste.y - f.outlineFrom.y == 1
      && f.outlineTo.x - (f.paste.x + img.width - 1) == 2
      && f.outlineTo.y - (f.paste.y + img.height - 1) == 2
  {
  }

  /** The outline colour: the palette's first triple (`palette[:3]`). */
  function Foreground(palette: seq<Byte>): (c: seq<Byte>)
    ensures |palette| >= 3 ==> |c| == 3 && c == palette[..3]
  {
    palette[..Min(3, |palette|)]
  }

  /** The canvas colour: the palette's last triple (`palette[-3:]`). */
  function Background(palette: seq<Byte>): (c: seq<Byte>)
    ensures |palette| >= 3 ==> |c| == 3 && c == palette[|palette| - 3..]
  {
    palette[|palette| - Min(3, |palette|)..]
  }

  /** On a device palette the outline is black and the canvas white. */
  lemma DeviceFrameColours(palette: seq<Byte>)
    requires GreyRamp(palette)
    ensures Foreground(palette) == [0, 0, 0]
    ensures Background(palette) == [0xff, 0xff, 0xff]
  {
  }

  // ---------------------------------------------------------------- convertImage

  datatype ConvertError =
    | UnexpectedDevice(device: string)   // the device is not in the table
    | CannotRead(source: string)         // the file does not open as an image

  /**
   * The stages of `convertImage` before framing: normalise the colour mode,
   * orient (Orient), resize (Shrink or Enlarge). The result is three-channel
   * colour, and with Shrink it fits the device.
   */
  function Prepare(img: Image, profile: Profile, flags: nat): (r: Image)
    requires Decoded(img) && profile.size.width > 0 && profile.size.height > 0
    ensures r.mode == "RGB"
    ensures Has(flags, Shrink) ==> Fits(r, profile.size)
  {
    var shrink := Has(flags, Shrink);
    var enlarge := Has(flags, Enlarge);
    var formatted := FormatImage(img);
    var oriented := if Has(flags, Orient) then OrientImage(formatted, profile.size) else formatted;
    var resized := if enlarge || shrink then ResizeImage(oriented, profile.size, shrink, enlarge) else oriented;
    assert shrink ==> Fits(resized, profile.size) by {
      if shrink {
        ShrinkFits(oriented, profile.size, enlarge);
      }
    }
    resized
  }

  /**
   * The frame stage of `convertImage`: the outline takes the device palette's
   * first colour and the canvas its last, which on every device is black on
   * white.
   */
  function FrameStage(img: Image, profile: Profile): (f: Framed)
    ensures f.foreground == profile.Palette()[..3] == [0, 0, 0]
    ensures f.background == profile.Palette()[|profile.Palette()| - 3..] == [0xff, 0xff, 0xff]
    ensures f.canvas.width == profile.size.width && f.canvas.height == profile.size.height
    ensures f.canvas.mode == img.mode
  {
    PaletteIsGreyRamp(profile.paletteName);
    DeviceFrameColours(profile.Palette());
    FrameImage(img, Foreground(profile.Palette()), Background(profile.Palette()), profile.size)
  }

  /**
   * The stages of `convertImage` after the device lookup and the decoding:
   * the prepared image, framed (Frame), then quantised (Quantize). Quantising
   * alone decides the page's colour mode, framing gives exactly the device
   * size, and with Shrink the page always fits the device.
   */
  function Convert(img: Image, profile: Profile, flags: nat): (page: Image)
    requires Decoded(img) && profile.size.width > 0 && profile.size.height > 0
    ensures Has(flags, Quantize) ==> page.mode == "P" && page.palette == PadPalette(profile.Palette())
    ensures !Has(flags, Quantize) ==> page.mode == "RGB"
    ensures Has(flags, Frame) ==> page.width == profile.size.width && page.height == profile.size.height
    ensures Has(flags, Shrink) ==> Fits(page, profile.size)
  {
    var prepared := Prepare(img, profile, flags);
    var framed := if Has(flags, Frame) then FrameStage(prepared, profile).canvas else prepared;
    if Has(flags, Quantize) then QuantizeImage(framed, profile.Palette()) else framed
  }

  /**
   * `convertImage` for the image file `source`, whose decoding is given as
   * `decoded` (None when PIL cannot open it). The device is looked up before
   * the file is read; on success exactly one image comes back.
   */
  function ConvertImage(source: string, decoded: Option<Image>, device: string, flags: nat)
    : (r: Result<Image, ConvertError>)
    requires decoded.Some? ==> Decoded(decoded.value)
    ensures device !in Profiles ==> r == Failure(UnexpectedDevice(device))
    ensures device in Profiles && decoded.None? ==> r == Failure(CannotRead(source))
    ensures r.Success? <==> device in Profiles && decoded.Some?
  {
    if device !in Profiles then Failure(UnexpectedDevice(device))
    else if decoded.None? then Failure(CannotRead(source))
    else
      ProfilesTable();
      Success(Convert(decoded.value, Profiles[device], flags))
  }

  /**
   * Quantising is the last stage: with Quantize the page is a palette image on
   * the padded device palette of 256 colours, without it three-channel colour.
   */
  lemma ConvertColourMode(source: string, decoded: Option<Image>, device: string, flags: nat)
    requires decoded.Some? && Decoded(decoded.value) && device in Profiles
    ensures var page := ConvertImage(source, decoded, device, flags).value;
      && (Has(flags, Quantize) ==>
            page.mode == "P" && page.palette == PadPalette(Profiles[device].Palette()) && |page.palette| == 768)
      && (!Has(flags, Quantize) ==> page.mode == "RGB")
  {
    ProfilesTable();
    var profile := Profiles[device];
    if Has(flags, Quantize) {
      PaletteIsGreyRamp(profile.paletteName);
      DevicePalettePadded(profile.Palette());
    }
  }

  /** Framing comes after resizing: a framed page has exactly the device size. */
  lemma ConvertFramedSize(source: string, decoded: Option<Image>, device: string, flags: nat)
    requires decoded.Some? && Decoded(decoded.value) && device in Profiles && Has(flags, Frame)
    ensures var page := ConvertImage(source, decoded, device, flags).value;
      page.width == Profiles[device].size.width && page.height == Profiles[device].size.height
  {
  }

  /**
   * With Frame the page is the frame stage's canvas, quantised when Quantize
   * is set, and that stage draws a black outline (the palette's first colour)
   * on a white canvas (its last).
   */
  lemma ConvertFrameColours(img: Image, profile: Profile, flags: nat)
    requires Decoded(img) && profile.size.width > 0 && profile.size.height > 0 && Has(flags, Frame)
    ensures var f := FrameStage(Prepare(img, profile, flags), profile);
      && f.foreground == profile.Palette()[..3] == [0, 0, 0]
      && f.background == profile.Palette()[|profile.Palette()| - 3..] == [0xff, 0xff, 0xff]
      && (Has(flags, Quantize) ==> Convert(img, profile, flags) == QuantizeImage(f.canvas, profile.Palette()))
      && (!Has(flags, Quantize) ==> Convert(img, profile, flags) == f.canvas)
  {
  }

  /** With Shrink set the page always fits the device, whatever else is set. */
  lemma ConvertShrinkFits(source: string, decoded: Option<Image>, device: string, flags: nat)
    requires decoded.Some? && Decoded(decoded.value) && device in Profiles && Has(flags, Shrink)
    ensures Fits(ConvertImage(source, decoded, device, flags).value, Profiles[device].size)
  {
    ProfilesTable();
  }

  /**
   * Orient alone (no resizing, no frame) keeps or swaps the sides so that a
   * non-square page has the device's orientation; with none of Orient,
   * Shrink, Enlarge and Frame the size is the source's.
   */
  lemma ConvertGeometryWithoutResize(source: string, decoded: Option<Image>, device: string, flags: nat)
    requires decoded.Some? && Decoded(decoded.value) && device in Profiles
    requires !Has(flags, Shrink) && !Has(flags, Enlarge) && !Has(flags, Frame)
    ensures var page := ConvertImage(source, decoded, device, flags).value;
      && (!Has(flags, Orient) ==> page.width == decoded.value.width && page.height == decoded.value.height)
      && (Has(flags, Orient) && decoded.value.width != decoded.value.height ==>
            Landscape(page.width, page.height) == Landscape(Profiles[device].size.width, Profiles[device].size.height))
  {
  }

  /**
   * The default flags (Orient, Shrink, Quantize) on "Kindle 3" turn a
   * 1600x1200 scan into one full 600x800 palette page in the model: the
   * landscape scan is turned for the portrait device, and with the sides
   * swapped exactly 1200x1600 has the device's aspect.
   */
  lemma ConvertKindle3Example(mode: string)
    ensures var r := ConvertImage("scan.png", Some(Image(1600, 1200, mode, [])), "Kindle 3", 11);
      r.Success? && r.value.width == 600 && r.value.height == 800 && r.value.mode == "P"
  {
    var profile := Profiles["Kindle 3"];
    assert profile == Profile(Size(600, 800), Grey15);
    assert Has(11, Orient) && Has(11, Shrink) && !Has(11, Enlarge) && !Has(11, Frame) && Has(11, Quantize);
    var formatted := FormatImage(Image(1600, 1200, mode, []));
    assert formatted == Image(1600, 1200, "RGB", []);
    var turned := OrientImage(formatted, profile.size);
    assert turned == Image(1200, 1600, "RGB", []);
    assert PlanResize(turned, profile.size, true, false) == Some(Resample(600, 800, Antialias));
  }

  /** The same scan without Orient is shrunk to 600x450: the width binds (1600/600 > 1200/800). */
  lemma ConvertKindle3Unturned(mode: string)
    ensures var r := ConvertImage("scan.png", Some(Image(1600, 1200, mode, [])), "Kindle 3", 10);
      r.Success? && r.value.width == 600 && r.value.height == 450 && r.value.mode == "P"
  {
    var profile := Profiles["Kindle 3"];
    assert profile == Profile(Size(600, 800), Grey15);
    assert !Has(10, Orient) && Has(10, Shrink) && !Has(10, Enlarge) && !Has(10, Frame) && Has(10, Quantize);
    var formatted := FormatImage(Image(1600, 1200, mode, []));
    assert formatted == Image(1600, 1200, "RGB", []);
    assert Scale(600, 1200, 1600) == 450;
    assert PlanResize(formatted, profile.size, true, false) == Some(Resample(600, 450, Antialias));
  }
}

=== FILE: kindle_data.dfy ===
/**
 * The device table (`KindleData` in image.py): for every supported reader its
 * page size and the grey palette its screen can show.
 */
module KindleData {

  /** One palette component. */
  type Byte = x: int | 0 <= x < 256

  datatype Size = Size(width: nat, height: nat)

  /** Which of the two palettes of the table a device uses. */
  datatype PaletteName = Grey4 | Grey15

  /** A device profile: target page size and palette. */
  datatype Profile = Profile(size: Size, paletteName: PaletteName)
  {
    /** The palette as a flat list of RGB bytes. */
    function Palette(): seq<Byte>
    {
      PaletteBytes(paletteName)
    }
  }

  function PaletteBytes(name: PaletteName): seq<Byte>
  {
    match name
    case Grey4 => Palette4
    case Grey15 => Palette15
  }

  /**
   * A palette of greys written as a flat list of RGB bytes: each level
   * contributes one triple with three equal components.
   */
  function Greys(levels: seq<Byte>): (palette: seq<Byte>)
  {
    if levels == [] then [] else [levels[0], levels[0], levels[0]] + Greys(levels[1..])
  }

  /** The four grey levels of the first Kindle. */
  const Levels4: seq<Byte> := [0x00, 0x55, 0xaa, 0xff]

  /** Fifteen grey levels; the table steps by 0x11 and has no 0xee entry. */
  const Levels15: seq<Byte> := [
    0x00, 0x11, 0x22, 0x33, 0x44, 0x55, 0x66, 0x77,
    0x88, 0x99, 0xaa, 0xbb, 0xcc, 0xdd, 0xff
  ]

  const Palette4: seq<Byte> := Greys(Levels4)
  const Palette15: seq<Byte> := Greys(Levels15)

  const Profiles: map<string, Profile> := map[
    "Kindle 1" := Profile(Size(600, 800), Grey4),
    "Kindle 2" := Profile(Size(600, 800), Grey15),
    "Kindle 3" := Profile(Size(600, 800), Grey15),
    "Kindle DX" := Profile(Size(824, 1200), Grey15),
    "Kindle DXG" := Profile(Size(824, 1200), Grey15),
    "nook" := Profile(Size(600, 730), Grey15),
    "nook color" := Profile(Size(600, 1024), Grey15)
  ]

  /** Every palette entry is a grey: the list is whole triples with three equal components. */
  ghost predicate AllGrey(palette: seq<Byte>)
  {
    if |palette| < 3 then palette == []
    else palette[0] == palette[1] == palette[2] && AllGrey(palette[3..])
  }

  /**
   * A grey palette holds one triple per level, all grey, starting with the
   * first level's triple and ending with the last level's.
   */
  lemma {:induction false} GreysAt(levels: seq<Byte>)
    ensures |Greys(levels)| == 3 * |levels|
    ensures AllGrey(Greys(levels))
    ensures levels != [] ==> Greys(levels)[..3] == [levels[0], levels[0], levels[0]]
    ensures levels != [] ==>
      Greys(levels)[3 * |levels| - 3..] == [levels[|levels| - 1], levels[|levels| - 1], levels[|levels| - 1]]
  {
    if levels != [] {
      GreysAt(levels[1..]);
      var rest := Greys(levels[1..]);
      assert Greys(levels) == [levels[0], levels[0], levels[0]] + rest;
      assert Greys(levels)[3..] == rest;
      if |levels| > 1 {
        assert Greys(levels)[3 * |levels| - 3..] == rest[3 * |levels[1..]| - 3..];
      }
    }
  }

  /**
   * What a device palette looks like: whole RGB triples of grey, 4 or 15
   * colours, from black to white.
   */
  ghost predicate GreyRamp(palette: seq<Byte>)
  {
    && AllGrey(palette)
    && |palette| % 3 == 0
    && (|palette| / 3 == 4 || |palette| / 3 == 15)
    && palette[..3] == [0, 0, 0]
    && palette[|palette| - 3..] == [0xff, 0xff, 0xff]
  }

  lemma Palette4IsGreyRamp()
    ensures GreyRamp(Palette4) && |Palette4| == 12
  {
    GreysAt(Levels4);
  }

  lemma Palette15IsGreyRamp()
    ensures GreyRamp(Palette15) && |Palette15| == 45
  {
    GreysAt(Levels15);
  }

  /**
   * What the table holds: exactly seven devices, "nook color" at
   * 600x1024, every page size positive, and only the first Kindle on the
   * four-level palette.
   */
  lemma ProfilesTable()
    ensures Profiles.Keys == {"Kindle 1", "Kindle 2", "Kindle 3", "Kindle DX", "Kindle DXG", "nook", "nook color"}
    ensures Profiles["nook color"].size == Size(600, 1024)
    ensures forall d :: d in Profiles ==> Profiles[d].size.width > 0 && Profiles[d].size.height > 0
    ensures forall d :: d in Profiles ==> (Profiles[d].paletteName == Grey4 <==> d == "Kindle 1")
  {
  }

  /** Every device palette is a grey ramp of 4 or 15 colours from black to white. */
  lemma PaletteIsGreyRamp(name: PaletteName)
    ensures GreyRamp(PaletteBytes(name))
  {
    match name
    case Grey4 => Palette4IsGreyRamp();
    case Grey15 => Palette15IsGreyRamp();
  }
}

=== FILE: wrappers.dfy ===
/** Optional values and error returns used across the model. */
module Wrappers {

  /** A value that may be missing (an attribute that does not exist, an image that cannot be decoded). */
  datatype Option<+T> = None | Some(value: T)

  /** The outcome of an operation that the source ends by raising an exception. */
  datatype Result<+T, +E> = Success(value: T) | Failure(error: E)
}
